=== FILE: README.md ===
# Attendance punch logic, time-window arithmetic and leave ledger fields

A Dafny model of the sequential core of a Django attendance application:

- **Clock** (`clock.dfy`): times of day as microseconds since midnight; the
  source's `int((b - a).total_seconds() / 60)` as truncation toward zero.
- **Models** (`models.dfy`): actions, attendance types, sub-shift windows,
  punches (optional in and out times), the per-employee, per-day record, and
  a store of records keyed by (employee, date). Open-punch counting lemmas.
- **Utils** (`utils.py`): worked, late, overtime and break minutes, the
  duplicate-punch check, the attendance summary and the absent-marking job.
- **Service** (`service.py`): the loop that sums worked minutes, proved equal
  to the utilities' sum, and the absent-marking variant that fails when the
  absent type is missing.
- **PunchView** (`views.py`, `AttendancePunchView`): check-in, check-out,
  generic actions (breaks, lunch, ...), the request dispatch and the status
  query, each as one step from a store to a new store and a reply, or to an
  error that carries no store (a refused request changes nothing).
- **Leave** (`models.py`): the inclusive day count of `LeaveRequest.save` and
  the remaining days of `LeaveBalance.save`.
- **SetupActions** (`setup_actions.py`): the idempotent get-or-create seeding
  of the ten default actions, keyed by their unique code.

The clock readings `today` and `now` are parameters. Which open punch the
store's `.last()` returns is not fixed by the code (the punch ordering is
commented out), so check-out and the status queries take it as a parameter
`pick`, constrained only to index an open punch whenever one exists.

The model follows what the code does, which is less than a full attendance
policy would: there is no grace period, no overnight-shift wrap, no minimum-hours or
too-early rejection, no Late type on check-in, and generic actions append an
open punch with no per-category guard (so several punches may be open at
once; check-in alone refuses while any is open). A check-in reuses a
soft-deleted record for the day, while check-out, generic actions and the
status query skip soft-deleted records; the model keeps that difference.

The day-count columns are non-negative integer columns. When a save would
store a negative count (an end date more than one day before the start date,
or more days used than allotted), the database rejects the row; the model
returns that rejection as an error instead of demanding well-ordered inputs.

## Model

| member | source | states |
|---|---|---|
| Clock.TruncMinutes | attendenceSettings/utils.py:27 | the whole minutes of a signed microsecond duration, truncated toward zero: bounded by the duration on both sides, with the duration's sign |
| Clock.MinutesBetween | attendenceSettings/utils.py:45-47 | minutes from `a` to `b` on one date: non-negative and bracketing `b - a` when `b >= a`, non-positive and bracketing `a - b` otherwise |
| Clock.ClampedMinutes | attendenceSettings/utils.py:15-16 | `max(0, minutes)`: 0 when `b <= a`, else the whole minutes elapsed |
| Models.LiveRecord | attendenceSettings/views.py:148-151 | the day's record is found iff one exists for (employee, date) and it is not soft-deleted, and then it is that record |
| Models.HasOpenIffOpenCount | attendenceSettings/views.py:112 | a record has an open punch (no check-out) iff its open-punch count is positive |
| Models.OpenCountAppend | attendenceSettings/views.py:116-122 | appending a punch raises the open count by one iff that punch is open |
| Models.OpenCountClose | attendenceSettings/views.py:154-160 | closing one open punch lowers the open count by exactly one |
| Utils.PunchMinutes | attendenceSettings/utils.py:12-16 | a punch missing either time, or whose check-out is at or before its check-in, contributes 0; otherwise its contribution is the whole minutes of its duration |
| Utils.WorkedMinutes | attendenceSettings/utils.py:8-17 | worked minutes are non-negative, 0 when no punch contributes, and at least every single punch's contribution |
| Utils.WorkedMinutesConcat | attendenceSettings/utils.py:10-17 | worked minutes are additive over a split of the punch list |
| Utils.WorkedMinutesAppend | attendenceSettings/utils.py:11-16 | appending a punch adds exactly its clamped duration; an open punch adds nothing |
| Utils.WorkedMinutesUpdate | attendenceSettings/views.py:158-172 | replacing one punch changes the total by the difference of the two contributions |
| Utils.LateMinutes | attendenceSettings/utils.py:20-28 | 0 without a sub-shift start or when checking in at or before it; otherwise the whole minutes since the start |
| Utils.LateMinutesMonotone | attendenceSettings/utils.py:25-28 | for a fixed sub-shift, a later check-in is never less late |
| Utils.ShiftMinutes | attendenceSettings/utils.py:33-38 | 480 without both sub-shift bounds; 0 when the end is at or before the start; else the whole minutes of the window |
| Utils.OvertimeMinutes | attendenceSettings/utils.py:31-40 | overtime is non-negative, at least worked minus shift length, and either 0 or exactly that difference |
| Utils.OvertimeDefaultShift | attendenceSettings/utils.py:33-40 | without a complete window overtime is `max(0, worked - 480)` |
| Utils.OvertimeInvertedWindow | attendenceSettings/utils.py:35-40 | a window ending before it starts has length 0, so all worked minutes are overtime |
| Utils.BreakDuration | attendenceSettings/utils.py:43-47 | unclamped break length: 0 for an empty break, non-positive truncated minutes when the end precedes the start |
| Utils.ValidateEmployee | attendenceSettings/utils.py:51-55 | an employee id is accepted iff it is at least 1 |
| Utils.CheckDuplicatePunch | attendenceSettings/utils.py:149-154 | true iff some punch was opened by the given action code and has no check-out |
| Utils.DuplicateImpliesOpen | attendenceSettings/utils.py:149-154 | an open duplicate punch is an open punch |
| Utils.AttendanceSummary | attendenceSettings/utils.py:157-190 | no live record gives not-checked-in, 0 punches, 0 minutes; otherwise checked in iff a punch is open, the current punch is an open one, the punch count and worked minutes of the record |
| Utils.NeedingMark | attendenceSettings/utils.py:133-138 | an employee needs marking iff they have some record and none dated today |
| Utils.AbsentRecords | attendenceSettings/utils.py:141-146 | one record per employee to mark, dated today, of type "A" with remark "Auto-marked absent" |
| Utils.AutoMarkAbsent | attendenceSettings/utils.py:131-146 | nothing changes without a live absent type; existing records are untouched; each employee needing marking gains its absent record and nothing else is added |
| Utils.AutoMarkAbsentKeepsEmployees | attendenceSettings/utils.py:134-146 | the job marks only employees that were already known |
| Utils.AutoMarkAbsentLeavesNoneToMark | attendenceSettings/utils.py:137-146 | after a run with the absent type present nobody is left to mark |
| Utils.AutoMarkAbsentNoneNeeded | attendenceSettings/utils.py:137-146 | with nobody left to mark the job returns the store unchanged |
| Utils.AutoMarkAbsentIdempotent | attendenceSettings/utils.py:131-146 | running the job twice on a day equals running it once |
| Utils.AutoMarkAbsentWellFormed | attendenceSettings/utils.py:141-146 | the job keeps each record under its own (employee, date) key and every punch carrying a check-in time |
| Service.WorkedMinutes | attendenceSettings/service.py:6-14 | the punch-by-punch loop returns exactly the utilities' worked minutes on every input |
| Utils.MarkRows | attendenceSettings/utils.py:137-146 | the loop as written over the listed employees with today's employees read once: without a live absent type nothing happens; existing records are untouched; every added record is an absent record for today for an employee not present; a run that completes has created today's record for every listed employee not present; a uniqueness failure happens only at a listed employee not present whose record for today existed or who was listed earlier (`Collides`) |
| Utils.CollidesSkip | attendenceSettings/utils.py:137-140 | a collision among the later listed employees is a collision of the whole listing |
| Utils.CollidesAfterCreate | attendenceSettings/utils.py:140-146 | a collision after creating the first listed employee's record is one with that employee listed earlier or with an existing record |
| Utils.EmployeeColumn | attendenceSettings/utils.py:125-127 | the employee column of the listed rows, one entry per row, in order |
| Utils.AutoMarkAbsentAsWritten | attendenceSettings/utils.py:125-146 | the job over the listed rows, one per (employee, date) record in the store's order: existing records are untouched and every added record is today's absent record of an employee with no record today |
| Utils.AutoMarkAbsentAsWrittenCompletes | attendenceSettings/utils.py:125-146 | over a listing holding a row for every record, a completed run with a live absent type gives every employee needing marking its absent record |
| Utils.AutoMarkAbsentAsWrittenFailsOnRepeat | attendenceSettings/utils.py:125-146 | the run stops on the (employee, date) uniqueness only when an employee with no record today is listed twice |
| Utils.AutoMarkAbsentRepeatedEmployee | attendenceSettings/utils.py:125-146 | an employee with records on days 1 and 2, marked on day 3, is listed twice and the run stops on the (employee, date) uniqueness |
| Utils.AutoMarkAbsentRepeatedEmployeeCorrected | attendenceSettings/utils.py:131-146 | on that store the corrected job succeeds and adds exactly one absent record |
| Utils.Unmarked | attendenceSettings/utils.py:137-138 | an employee is left to mark iff it is listed and not present today |
| Utils.AbsentRecordsAdd | attendenceSettings/utils.py:141-146 | creating one absent record and then the others equals creating them together |
| Utils.MarkRowsNoRepeats | attendenceSettings/utils.py:137-146 | over a listing without repeats, whose employees outside `present` have no record today, the loop never fails and adds exactly one absent record per such employee |
| Utils.AutoMarkAbsentIsDistinctLoop | attendenceSettings/utils.py:125-146 | the corrected job is the loop over a listing that names each known employee exactly once |
| Service.AutoMarkAbsent | attendenceSettings/service.py:19-36 | the corrected job, each known employee listed once: fails iff someone needs marking and type "A" does not exist; with nobody to mark nothing changes; otherwise the same records as the utilities' job |
| Service.MarkRows | attendenceSettings/service.py:28-36 | the service loop as written: existing records are untouched; every added record is today's absent record of an employee not present; a missing type fails only when the type is not found, a duplicate only when it is; a run without failure has created today's record for every listed employee not present |
| Service.AutoMarkAbsentAsWritten | attendenceSettings/service.py:19-36 | the service job over one listed row per record: existing records are untouched, additions are absent records for employees with no record today, and a missing-type failure means no "A" type exists |
| Service.MarkRowsAgree | attendenceSettings/service.py:28-36 | with the type found, the service loop makes the same records as the utilities' loop and fails exactly where that one meets the uniqueness |
| Service.AutoMarkAbsentAsWrittenCompletes | attendenceSettings/service.py:19-36 | over a listing holding a row for every record, a run without failure gives every employee needing marking its absent record |
| Service.AutoMarkAbsentAsWrittenFailsOnRepeat | attendenceSettings/service.py:19-36 | the service run fails on the uniqueness only when an employee with no record today is listed twice |
| Service.AutoMarkAbsentRepeatedEmployee | attendenceSettings/service.py:19-36 | with records (7, day 1) and (7, day 2), the run on day 3 saves (7, 3) and then fails on its uniqueness, while the corrected job succeeds with that one record |
| Service.AutoMarkAbsentIsDistinctLoop | attendenceSettings/service.py:19-36 | the corrected service job is the loop over a listing naming each known employee once: with an "A" type it never fails and gives the store `AutoMarkAbsent` returns |
| Service.AutoMarkAbsentAgrees | attendenceSettings/service.py:22-36 | with a live absent type both variants of the job give the same store |
| PunchView.FillType | attendenceSettings/views.py:124-126 | a missing attendance type becomes Present ("P"); a set one is kept |
| PunchView.CheckIn | attendenceSettings/views.py:102-143 | refused iff today's punches include an open one; otherwise exactly one open punch at `now` is appended and becomes the only open one, a missing type becomes Present and a set one is kept, late minutes are recomputed only with a sub-shift start, the reply reports them or 0, and no other record or field changes |
| PunchView.CheckOut | attendenceSettings/views.py:145-191 | refused with no-attendance iff there is no live record and with no-open-check-in iff the live record has no open punch, and it succeeds iff the live record has an open punch; then only the picked open punch gains check-out `now`, the open count drops by one, a missing type becomes Present and a set one is kept, worked minutes rise by the closed punch's duration, overtime is `max(0, worked - shift length)`, and nothing else changes |
| PunchView.GenericAction | attendenceSettings/views.py:193-215 | refused iff no live record; otherwise one open punch is appended, worked minutes are unchanged and no other field or record changes |
| PunchView.Post | attendenceSettings/views.py:73-100 | a non-positive employee id, an unknown, inactive or deleted action, and a missing Present type are refused in that order; otherwise the action code selects check-in, check-out or the generic action |
| PunchView.ViewWorkedMinutes | attendenceSettings/views.py:239-243 | the status view's own sum succeeds iff every closed punch has a check-in, and then equals the utilities' worked minutes |
| PunchView.GetStatus | attendenceSettings/views.py:217-253 | a missing employee parameter is refused; no live record reports nothing open and zeros; it fails iff a closed punch lacks a check-in; otherwise it equals the attendance summary |
| PunchView.GetStatusTotal | attendenceSettings/views.py:225-244 | on well-formed stores (each record under its own key, every punch with a check-in time) the status query succeeds |
| PunchView.PostWellFormed | attendenceSettings/views.py:115-122 | every successful punch request keeps each record under its own (employee, date) key and every punch carrying a check-in time |
| PunchView.DoubleCheckInRefused | attendenceSettings/views.py:111-113 | a second check-in without a check-out in between is refused |
| PunchView.CheckInThenCheckOut | attendenceSettings/views.py:102-191 | after a check-in on a live record the new punch is the one to close, check-out then succeeds, leaves no punch open and adds exactly the clamped minutes between the two times |
| Leave.DaysBetweenMembers | attendenceSettings/models.py:206-207 | a day belongs to the inclusive range iff it lies between the start and end dates |
| Leave.DaysBetweenCount | attendenceSettings/models.py:206-207 | the inclusive range from start to end has `end - start + 1` days |
| Leave.SaveLeaveRequest | attendenceSettings/models.py:202-208 | a missing or zero day count with both dates set becomes the number of days in the inclusive range (1 for a single day, 0 when the end is the day before the start); a set count or a missing date leaves it; a negative count is rejected; no other field changes |
| Leave.SaveLeaveRequestIdempotent | attendenceSettings/models.py:204-207 | saving a request twice gives the same day count as saving it once |
| Leave.SaveLeaveBalance | attendenceSettings/models.py:237-241 | with total and used days set, `used + remaining == total`, rejected iff used exceeds total; with either unset the balance is unchanged |
| Leave.SaveLeaveBalanceIdempotent | attendenceSettings/models.py:239-240 | saving a balance twice gives the same remaining days as saving it once |
| SetupActions.Seed | attendenceSettings/management/commands/setup_actions.py:21-32 | the get-or-create loop; when it fails, the failing default's code was missing beforehand and its name was already held by an action |
| SetupActions.Handle | attendenceSettings/management/commands/setup_actions.py:7-32 | the command over the ten defaults completes whenever no other code holds a default's name; a failure names a missing default code |
| SetupActions.DistinctCodesTail | attendenceSettings/management/commands/setup_actions.py:8-19 | the defaults after the first keep distinct codes, none equal to the first's |
| SetupActions.DistinctNamesTail | attendenceSettings/management/commands/setup_actions.py:8-19 | the defaults after the first keep distinct names, none equal to the first's |
| SetupActions.SeedKeepsExisting | attendenceSettings/management/commands/setup_actions.py:22-30 | seeding never changes or removes an existing action, and each added action is the created form of a default with that code |
| SetupActions.SeedCoversDefaults | attendenceSettings/management/commands/setup_actions.py:22-30 | a completed run leaves every default code present |
| SetupActions.SeedCount | attendenceSettings/management/commands/setup_actions.py:21-32 | a completed run counts one creation per default code absent beforehand |
| SetupActions.SeedCompletes | attendenceSettings/models.py:9 | with distinct default names that no other code holds, the get-or-create loop never hits the unique-name constraint |
| SetupActions.SeedNothingMissing | attendenceSettings/management/commands/setup_actions.py:23-32 | when every default code is present a run creates nothing and changes nothing |
| SetupActions.SeedSpec | attendenceSettings/management/commands/setup_actions.py:21-32 | over defaults with distinct codes and names, none held by another code, the loop completes, covers every default code, keeps existing actions, adds only created defaults and counts the missing codes |
| SetupActions.HandleSpec | attendenceSettings/management/commands/setup_actions.py:7-32 | when no other code holds a default's name the run completes, all ten codes exist, earlier actions are untouched, new actions carry the listed name, description and `is_active`, and the count is the number of missing codes |
| SetupActions.HandleIdempotent | attendenceSettings/management/commands/setup_actions.py:23-32 | after any completed run a second run completes, creates 0 actions and changes nothing |

## Findings

| source | as written | input that shows it | evidently intended | confidence | as-written member | corrected member |
|---|---|---|---|---|---|---|
| attendenceSettings/utils.py:125-146 | `values_list('employee', flat=True).distinct()` on a model ordered by `-date` selects the date as well, so the loop sees an employee once per day with a record. `present_today` is read once, so the second sighting creates today's record again and breaks `unique_together` (employee, date). | records (7, day 1) and (7, day 2), absent type present, run on day 3: listing [7, 7], the first pass creates (7, 3), the second fails | each known employee is visited once and marked at most once | medium, not executed; depends on the ORM adding the default ordering column to the distinct query | Utils.AutoMarkAbsentRepeatedEmployee | Utils.AutoMarkAbsentIsDistinctLoop |
| attendenceSettings/service.py:19-36 | the service copy of the job lists employees by the same distinct query and reads `present_today` once, so a repeated employee is created twice; the first absent row is saved before the uniqueness failure | records (7, day 1) and (7, day 2), type "A" present, run on day 3: (7, 3) is saved, then the second create fails | each known employee is visited once and marked at most once | medium, not executed; depends on the ORM adding the default ordering column to the distinct query | Service.AutoMarkAbsentRepeatedEmployee | Service.AutoMarkAbsentIsDistinctLoop |

## Left out

- CRUD views for actions, attendance types, attendances, shifts, sub-shifts and shift head types: storage plumbing, where soft delete only sets a flag.
- URL routing, admin registration and serializers, apart from the positive employee id check, which the punch dispatch keeps.
- The clock calls for the local date and time: `today` and `now` are parameters.
- Transactions and row locks in `get_or_create_attendance`: each operation is one atomic step, and concurrency is not modelled.
- Floating point: `total_seconds() / 60` is exact integer truncation at microsecond granularity; the float overtime and working-hour fields are whole minutes.
- Time truthiness checks are read as "is set"; a midnight time counts as set, as it does on current Python versions.
- The live ORM schema: it filters on `is_deleted` where the models declare `deleted`, and `Attendance` has no `date` field or `punches` relation while `AttendancePunch` is commented out. The model uses the intended record of date, sub-shift, type, punches, late and overtime minutes.
- Null employee ids in attendance records: employees are integers, so the absent-marking job never creates a record for a missing employee id.
- Grace periods, overnight shifts, minimum hours, too-early check-ins, leave approval, rejection and cancellation, balance restore and loss-of-pay bypass: no code implements them.
- Response formatting helpers, punch ids, action-name lookups in replies and the seeding command's console messages.
- `validate_action_exists` and `validate_attendance_type_exists` are lookups; the punch dispatch and the absent-marking job model their conditions inline.
- Shift and shift head data: only a sub-shift's optional start and end times are modelled.
- The order in which the store lists the employee rows is a parameter of `Utils.AutoMarkAbsentAsWritten` and `Service.AutoMarkAbsentAsWritten`. On the live `Attendance` schema, ordered by check-in time and with no uniqueness on (employee, date), a repeated sighting would add a second absent row rather than fail. The model follows the intended schema.
- PunchView.GetStatus: the employee parameter is taken as an integer; the view reads it as a query string, and a non-empty non-numeric value makes the integer lookup raise an uncaught error (a server error), which the model does not represent.
- Utils.AttendanceSummary and PunchView.GetStatus report the open punch itself, not the dictionary of its time, id and action name.

=== FILE: clock.dfy ===
/**
 Times of day and the minute arithmetic the attendance code performs on them.

 A `datetime.time` is modelled as whole microseconds since midnight. The source
 turns a difference of two combined datetimes into minutes with
 `int(delta.total_seconds() / 60)`: a division followed by truncation toward
 zero, which is exact at microsecond granularity.
 */
module Clock {

  const MicrosPerMinute: int := 60_000_000
  const MicrosPerDay: int := 86_400_000_000

  /** A time of day, `00:00:00.000000 ..< 24:00:00.000000`. */
  type Time = t: int | 0 <= t < MicrosPerDay

  /**
   A signed duration in microseconds as whole minutes, truncated toward zero
   as Python's `int(seconds / 60)` does (Dafny's own `/` rounds down).
   */
  function TruncMinutes(micros: int): (q: int)
    ensures micros >= 0 ==> 0 <= q && q * MicrosPerMinute <= micros < (q + 1) * MicrosPerMinute
    ensures micros < 0 ==> q <= 0 && -q * MicrosPerMinute <= -micros < (-q + 1) * MicrosPerMinute
  {
    if micros >= 0 then micros / MicrosPerMinute else -((-micros) / MicrosPerMinute)
  }

  /**
   Whole minutes from `a` to `b` on the same calendar day, truncated toward
   zero: non-negative when `b` is at or after `a`, non-positive otherwise.
   */
  function MinutesBetween(a: Time, b: Time): (m: int)
    ensures b >= a ==> 0 <= m && m * MicrosPerMinute <= b - a < (m + 1) * MicrosPerMinute
    ensures b < a ==> m <= 0 && -m * MicrosPerMinute <= a - b < (-m + 1) * MicrosPerMinute
  {
    TruncMinutes(b - a)
  }

  /** Whole minutes elapsed from `a` to `b`, or 0 when `b` does not come after `a`. */
  function ClampedMinutes(a: Time, b: Time): (m: nat)
    ensures b <= a ==> m == 0
    ensures b >= a ==> m * MicrosPerMinute <= b - a < (m + 1) * MicrosPerMinute
  {
    var d := MinutesBetween(a, b);
    if d > 0 then d else 0
  }
}

=== FILE: leave.dfy ===
/**
 The derived fields of the leave ledger (attendenceSettings/models.py): the
 inclusive day count a leave request computes when saved, and the remaining
 days a leave balance recomputes when saved. Dates are day numbers.

 The day counts live in non-negative integer columns; a negative value fails
 the column's database constraint, and that failure is the error case here.
 */
module Leave {
  import opened Wrappers

  datatype DbError = NegativeValue(column: string)

  datatype LeaveRequest = LeaveRequest(
    employee: Option<int>,
    attendanceType: Option<string>,
    startDate: Option<int>,
    endDate: Option<int>,
    totalDays: Option<nat>,
    reason: Option<string>)

  datatype LeaveBalance = LeaveBalance(
    employee: Option<int>,
    leaveType: Option<string>,
    year: Option<nat>,
    totalDays: Option<nat>,
    usedDays: Option<nat>,
    remainingDays: Option<nat>)

  /** The calendar days from `start` to `end`, both included. */
  function DaysBetween(start: int, end: int): set<int>
    decreases end - start
  {
    if end < start then {} else DaysBetween(start, end - 1) + {end}
  }

  /** A day is in the range exactly when it lies between the two dates. */
  lemma {:induction false} DaysBetweenMembers(start: int, end: int, d: int)
    ensures d in DaysBetween(start, end) <==> start <= d <= end
    decreases end - start
  {
    if end >= start {
      DaysBetweenMembers(start, end - 1, d);
    }
  }

  /** An inclusive range of days has `end - start + 1` members. */
  lemma {:induction false} DaysBetweenCount(start: int, end: int)
    requires start <= end + 1
    ensures |DaysBetween(start, end)| == end - start + 1
    decreases end - start
  {
    if end >= start {
      DaysBetweenCount(start, end - 1);
      DaysBetweenMembers(start, end - 1, end);
    }
  }

  /** The request still needs its day count: none stored (or 0) and both dates set. */
  predicate NeedsDayCount(req: LeaveRequest) {
    (req.totalDays.None? || req.totalDays.value == 0) && req.startDate.Some? && req.endDate.Some?
  }

  /**
   Saving a leave request fills in a missing or zero day count with the number
   of days from the start date to the end date inclusive; an existing count or
   a missing date leaves it as it is.
   */
  function SaveLeaveRequest(req: LeaveRequest): (r: Result<LeaveRequest, DbError>)
    ensures r.Success? ==> r.value == req.(totalDays := r.value.totalDays)
    ensures !NeedsDayCount(req) ==> r == Success(req)
    ensures NeedsDayCount(req) && req.startDate.value <= req.endDate.value + 1 ==>
      r.Success? && r.value.totalDays == Some(|DaysBetween(req.startDate.value, req.endDate.value)|)
    ensures NeedsDayCount(req) ==> (r.Failure? <==> req.endDate.value < req.startDate.value - 1)
    ensures NeedsDayCount(req) && req.startDate.value == req.endDate.value ==> r == Success(req.(totalDays := Some(1)))
  {
    if NeedsDayCount(req) then
      var days := req.endDate.value - req.startDate.value + 1;
      if days < 0 then Failure(NegativeValue("total_days"))
      else
        DaysBetweenCount(req.startDate.value, req.endDate.value);
        Success(req.(totalDays := Some(days)))
    else Success(req)
  }

  /** Saving a leave request twice gives the same day count as saving it once. */
  lemma SaveLeaveRequestIdempotent(req: LeaveRequest)
    requires SaveLeaveRequest(req).Success?
    ensures SaveLeaveRequest(SaveLeaveRequest(req).value) == SaveLeaveRequest(req)
  {
  }

  /**
   Saving a leave balance recomputes the remaining days as total minus used
   when both are set; otherwise the remaining days are left as they are.
   */
  function SaveLeaveBalance(b: LeaveBalance): (r: Result<LeaveBalance, DbError>)
    ensures r.Success? ==> r.value == b.(remainingDays := r.value.remainingDays)
    ensures b.totalDays.None? || b.usedDays.None? ==> r == Success(b)
    ensures r.Failure? <==> b.totalDays.Some? && b.usedDays.Some? && b.usedDays.value > b.totalDays.value
    ensures r.Success? && b.totalDays.Some? && b.usedDays.Some? ==>
      r.value.remainingDays.Some? && b.usedDays.value + r.value.remainingDays.value == b.totalDays.value
  {
    if b.totalDays.Some? && b.usedDays.Some? then
      var remaining := b.totalDays.value - b.usedDays.value;
      if remaining < 0 then Failure(NegativeValue("remaining_days")) else Success(b.(remainingDays := Some(remaining)))
    else Success(b)
  }

  /** Saving a leave balance twice gives the same remaining days as saving it once. */
  lemma SaveLeaveBalanceIdempotent(b: LeaveBalance)
    requires SaveLeaveBalance(b).Success?
    ensures SaveLeaveBalance(SaveLeaveBalance(b).value) == SaveLeaveBalance(b)
  {
  }
}

=== FILE: models.dfy ===
/**
 The attendance records the punch logic works on: actions, attendance types,
 sub-shift windows, punches and per-employee, per-day records.

 A day record is the intended shape of `Attendance` together with its
 `AttendancePunch` rows: one record per (employee, date), holding the punches
 of that day in the order the store returns them.
 */
module Models {
  import opened Wrappers
  import opened Clock

  /** An attendance action such as `check_in` or `break_start`. */
  datatype Action = Action(
    code: string,
    name: string,
    description: Option<string>,
    category: string,
    isActive: bool,
    deleted: bool)

  /** An attendance classification such as Present ("P") or Absent ("A"). */
  datatype AttendanceType = AttendanceType(code: string, title: Option<string>, isLeave: bool, deleted: bool)

  /** Attendance types keyed by their unique code. */
  type TypeTable = map<string, AttendanceType>

  /** The time window of a sub-shift; either bound may be unset. */
  datatype SubShift = SubShift(timeStart: Option<Time>, timeEnd: Option<Time>)

  /** One punch: the action that opened it and its optional in and out times. */
  datatype Punch = Punch(action: string, checkIn: Option<Time>, checkOut: Option<Time>)

  /** The attendance of one employee on one day. */
  datatype DayRecord = DayRecord(
    employee: int,
    date: int,
    subShift: Option<SubShift>,
    attendanceType: Option<string>,
    punches: seq<Punch>,
    lateByMinutes: Option<nat>,
    overtimeMinutes: Option<nat>,
    remarks: Option<string>,
    deleted: bool)

  datatype Key = Key(employee: int, date: int)

  /** All attendance records, at most one per (employee, date). */
  type Store = map<Key, DayRecord>

  /** The punch status of one employee on one day, as the status views report it. */
  datatype Status = Status(
    employee: int,
    date: int,
    isCheckedIn: bool,
    currentPunch: Option<Punch>,
    totalPunches: nat,
    workedMinutes: nat)

  /** The status reported when the employee has no live record for the day. */
  function NoRecordStatus(employee: int, date: int): Status {
    Status(employee, date, false, None, 0, 0)
  }

  /** The live record of `employee` on `date`, skipping soft-deleted ones. */
  function LiveRecord(store: Store, employee: int, date: int): (r: Option<DayRecord>)
    ensures r.Some? <==> Key(employee, date) in store && !store[Key(employee, date)].deleted
    ensures r.Some? ==> r.value == store[Key(employee, date)]
  {
    var k := Key(employee, date);
    if k in store && !store[k].deleted then Some(store[k]) else None
  }

  const PresentCode: string := "P"
  const AbsentCode: string := "A"

  /** A punch is open while it has no check-out time. */
  predicate IsOpen(p: Punch) {
    p.checkOut.None?
  }

  predicate HasOpen(ps: seq<Punch>) {
    exists i :: 0 <= i < |ps| && IsOpen(ps[i])
  }

  /** The number of open punches. */
  function OpenCount(ps: seq<Punch>): nat {
    if |ps| == 0 then 0 else (if IsOpen(ps[0]) then 1 else 0) + OpenCount(ps[1..])
  }

  /**
   The store decides which open punch `.last()` returns; `pick` names it.
   Whenever the record has an open punch, `pick` must index one.
   */
  predicate ValidPick(ps: seq<Punch>, pick: nat) {
    HasOpen(ps) ==> pick < |ps| && IsOpen(ps[pick])
  }

  /** Every punch carries a check-in time, as every punch the views create does. */
  predicate WellFormed(ps: seq<Punch>) {
    forall i :: 0 <= i < |ps| ==> ps[i].checkIn.Some?
  }

  /**
   Every record sits under the key of its own employee and date, and every
   punch in it carries a check-in time.
   */
  predicate WellFormedStore(store: Store) {
    forall k :: k in store ==> store[k].employee == k.employee && store[k].date == k.date && WellFormed(store[k].punches)
  }

  /** A record has an open punch exactly when its open-punch count is positive. */
  lemma {:induction false} HasOpenIffOpenCount(ps: seq<Punch>)
    ensures HasOpen(ps) <==> OpenCount(ps) > 0
  {
    if |ps| > 0 {
      HasOpenIffOpenCount(ps[1..]);
      if HasOpen(ps) && !IsOpen(ps[0]) {
        var i :| 0 <= i < |ps| && IsOpen(ps[i]);
        assert IsOpen(ps[1..][i - 1]);
      }
      if HasOpen(ps[1..]) {
        var i :| 0 <= i < |ps[1..]| && IsOpen(ps[1..][i]);
        assert IsOpen(ps[i + 1]);
      }
    }
  }

  /** Appending a punch adds one to the open count exactly when the punch is open. */
  lemma {:induction false} OpenCountAppend(ps: seq<Punch>, p: Punch)
    ensures OpenCount(ps + [p]) == OpenCount(ps) + (if IsOpen(p) then 1 else 0)
  {
    if |ps| > 0 {
      assert (ps + [p])[1..] == ps[1..] + [p];
      OpenCountAppend(ps[1..], p);
    }
  }

  /** Replacing an open punch by a closed one lowers the open count by exactly one. */
  lemma {:induction false} OpenCountClose(ps: seq<Punch>, i: nat, q: Punch)
    requires i < |ps| && IsOpen(ps[i]) && !IsOpen(q)
    ensures OpenCount(ps[i := q]) == OpenCount(ps) - 1
  {
    if i > 0 {
      assert ps[i := q][1..] == ps[1..][i - 1 := q];
      OpenCountClose(ps[1..], i - 1, q);
    } else {
      assert ps[i := q][1..] == ps[1..];
    }
  }
}

=== FILE: punch_view.dfy ===
/**
 The punch state machine behind the attendance punch endpoint
 (attendenceSettings/views.py, `AttendancePunchView`): check-in, check-out,
 generic actions such as breaks, the request dispatch and the status query.

 Each operation is one atomic step from a store to a new store and a reply,
 or to an error. An error carries no store: a refused request changes nothing.
 The clock readings `today` and `now` are parameters.
 */
module PunchView {
  import opened Wrappers
  import opened Clock
  import opened Models
  import Utils

  const CheckInCode: string := "check_in"
  const CheckOutCode: string := "check_out"

  datatype PunchError =
    | InvalidEmployee
    | ActionNotFound
    | PresentTypeNotFound
    | AlreadyCheckedIn
    | NoAttendanceToday
    | NoOpenCheckIn

  /** The success payload of each punch kind; actions are reported by name. */
  datatype PunchReply =
    | CheckedIn(action: string, checkInTime: Time, lateByMinutes: nat)
    | CheckedOut(action: string, checkOutTime: Time, workedMinutes: nat, overtimeMinutes: nat)
    | ActionRecorded(action: string, actionTime: Time)

  datatype Outcome = Outcome(store: Store, reply: PunchReply)

  datatype StatusError = EmployeeParameterRequired | InternalError

  /** `t` agrees with `s` on every key other than `k`. */
  predicate SameExcept(s: Store, t: Store, k: Key) {
    && s.Keys - {k} == t.Keys - {k}
    && forall k2 :: k2 in s && k2 != k ==> k2 in t && t[k2] == s[k2]
  }

  /** The record `get_or_create` makes for a first check-in of the day. */
  function NewRecord(employee: int, today: int): DayRecord {
    DayRecord(employee, today, None, Some(PresentCode), [], None, None, None, false)
  }

  /** A missing attendance type becomes Present; a set one is kept. */
  function FillType(t: Option<string>): (r: Option<string>)
    ensures t.None? ==> r == Some(PresentCode)
    ensures t.Some? ==> r == t
  {
    if t.None? then Some(PresentCode) else t
  }

  /** The open punch an action starts at `now`. */
  function OpenPunch(action: Action, now: Time): Punch {
    Punch(action.code, Some(now), None)
  }

  /** Punches of `employee` on `today`, or none when no record exists (soft-deleted or not). */
  function PunchesOf(store: Store, employee: int, today: int): seq<Punch> {
    var k := Key(employee, today);
    if k in store then store[k].punches else []
  }

  /**
   Check-in: gets or creates today's record, refuses while any punch is open,
   otherwise appends one open punch at `now`, fills a missing type with
   Present and, when the sub-shift has a start, records the minutes late.
   */
  function CheckIn(store: Store, employee: int, today: int, now: Time, action: Action): (r: Result<Outcome, PunchError>)
    ensures r.Failure? <==> HasOpen(PunchesOf(store, employee, today))
    ensures r.Failure? ==> r.error == AlreadyCheckedIn
    ensures r.Success? ==> Key(employee, today) in r.value.store
    ensures r.Success? ==>
      var k := Key(employee, today);
      var prev := if k in store then store[k] else NewRecord(employee, today);
      var rec := r.value.store[k];
      && SameExcept(store, r.value.store, k)
      && rec.punches == prev.punches + [OpenPunch(action, now)]
      && OpenCount(rec.punches) == 1
      && IsOpen(rec.punches[|rec.punches| - 1])
      && (prev.attendanceType.None? ==> rec.attendanceType == Some(PresentCode))
      && (prev.attendanceType.Some? ==> rec.attendanceType == prev.attendanceType)
      && (Utils.ShiftStart(prev.subShift).Some? ==> rec.lateByMinutes == Some(Utils.LateMinutes(prev.subShift, now)))
      && (Utils.ShiftStart(prev.subShift).None? ==> rec.lateByMinutes == prev.lateByMinutes)
      && rec == prev.(punches := rec.punches, attendanceType := rec.attendanceType, lateByMinutes := rec.lateByMinutes)
      && r.value.reply == CheckedIn(action.name, now, rec.lateByMinutes.GetOr(0))
  {
    var k := Key(employee, today);
    var prev := if k in store then store[k] else NewRecord(employee, today);
    if HasOpen(prev.punches) then Failure(AlreadyCheckedIn)
    else
      var ps := prev.punches + [OpenPunch(action, now)];
      var late := if Utils.ShiftStart(prev.subShift).Some? then Some(Utils.LateMinutes(prev.subShift, now)) else prev.lateByMinutes;
      var rec := prev.(punches := ps, attendanceType := FillType(prev.attendanceType), lateByMinutes := late);
      HasOpenIffOpenCount(prev.punches);
      OpenCountAppend(prev.punches, OpenPunch(action, now));
      Success(Outcome(store[k := rec], CheckedIn(action.name, now, late.GetOr(0))))
  }

  /** The punch list after closing punch `pick` at `now`. */
  function ClosePunch(ps: seq<Punch>, pick: nat, now: Time): seq<Punch>
    requires pick < |ps|
  {
    ps[pick := ps[pick].(checkOut := Some(now))]
  }

  /**
   Check-out: needs a live record for today with an open punch; closes the
   open punch the store returns (`pick`) at `now`, fills a missing type with
   Present and recomputes worked and overtime minutes over all punches.
   */
  function CheckOut(store: Store, employee: int, today: int, now: Time, action: Action, pick: nat): (r: Result<Outcome, PunchError>)
    requires LiveRecord(store, employee, today).Some? ==> ValidPick(LiveRecord(store, employee, today).value.punches, pick)
    ensures r == Failure(NoAttendanceToday) <==> LiveRecord(store, employee, today).None?
    ensures r == Failure(NoOpenCheckIn) <==>
      LiveRecord(store, employee, today).Some? && !HasOpen(LiveRecord(store, employee, today).value.punches)
    ensures r.Success? <==>
      LiveRecord(store, employee, today).Some? && HasOpen(LiveRecord(store, employee, today).value.punches)
    ensures r.Success? ==> Key(employee, today) in store && Key(employee, today) in r.value.store
    ensures r.Success? ==>
      var k := Key(employee, today);
      var prev := store[k];
      var rec := r.value.store[k];
      && SameExcept(store, r.value.store, k)
      && pick < |prev.punches| && IsOpen(prev.punches[pick])
      && |rec.punches| == |prev.punches|
      && (forall j :: 0 <= j < |prev.punches| && j != pick ==> rec.punches[j] == prev.punches[j])
      && rec.punches[pick] == prev.punches[pick].(checkOut := Some(now))
      && OpenCount(rec.punches) == OpenCount(prev.punches) - 1
      && (prev.attendanceType.None? ==> rec.attendanceType == Some(PresentCode))
      && (prev.attendanceType.Some? ==> rec.attendanceType == prev.attendanceType)
      && rec == prev.(punches := rec.punches, attendanceType := rec.attendanceType, overtimeMinutes := rec.overtimeMinutes)
      && r.value.reply.CheckedOut?
      && r.value.reply.action == action.name
      && r.value.reply.checkOutTime == now
      && r.value.reply.workedMinutes == Utils.WorkedMinutes(rec.punches)
      && r.value.reply.workedMinutes == Utils.WorkedMinutes(prev.punches) + Utils.PunchMinutes(rec.punches[pick])
      && rec.overtimeMinutes == Some(r.value.reply.overtimeMinutes)
      && r.value.reply.overtimeMinutes >= r.value.reply.workedMinutes - Utils.ShiftMinutes(prev.subShift)
      && (r.value.reply.overtimeMinutes == 0 ||
          r.value.reply.overtimeMinutes == r.value.reply.workedMinutes - Utils.ShiftMinutes(prev.subShift))
  {
    match LiveRecord(store, employee, today)
    case None => Failure(NoAttendanceToday)
    case Some(prev) =>
      if !HasOpen(prev.punches) then Failure(NoOpenCheckIn)
      else
        var ps := ClosePunch(prev.punches, pick, now);
        var worked := Utils.WorkedMinutes(ps);
        var ot := Utils.OvertimeMinutes(prev.subShift, worked);
        var rec := prev.(punches := ps, attendanceType := FillType(prev.attendanceType), overtimeMinutes := Some(ot));
        OpenCountClose(prev.punches, pick, ps[pick]);
        Utils.WorkedMinutesUpdate(prev.punches, pick, ps[pick]);
        Success(Outcome(store[Key(employee, today) := rec], CheckedOut(action.name, now, worked, ot)))
  }

  /**
   Any other action (a break or lunch boundary, a meeting, ...): needs a live
   record for today and appends one open punch at `now`, with no other guard.
   */
  function GenericAction(store: Store, employee: int, today: int, now: Time, action: Action): (r: Result<Outcome, PunchError>)
    ensures r.Failure? <==> LiveRecord(store, employee, today).None?
    ensures r.Failure? ==> r.error == NoAttendanceToday
    ensures r.Success? ==> Key(employee, today) in store && Key(employee, today) in r.value.store
    ensures r.Success? ==>
      var k := Key(employee, today);
      var rec := r.value.store[k];
      && SameExcept(store, r.value.store, k)
      && rec == store[k].(punches := store[k].punches + [OpenPunch(action, now)])
      && Utils.WorkedMinutes(rec.punches) == Utils.WorkedMinutes(store[k].punches)
      && OpenCount(rec.punches) == OpenCount(store[k].punches) + 1
      && r.value.reply == ActionRecorded(action.name, now)
  {
    match LiveRecord(store, employee, today)
    case None => Failure(NoAttendanceToday)
    case Some(prev) =>
      var ps := prev.punches + [OpenPunch(action, now)];
      Utils.WorkedMinutesAppend(prev.punches, OpenPunch(action, now));
      OpenCountAppend(prev.punches, OpenPunch(action, now));
      Success(Outcome(store[Key(employee, today) := prev.(punches := ps)], ActionRecorded(action.name, now)))
  }

  /** An action the punch endpoint accepts: known, active and not soft-deleted. */
  predicate UsableAction(actions: map<int, Action>, actionId: int) {
    actionId in actions && actions[actionId].isActive && !actions[actionId].deleted
  }

  /**
   The punch request: validates the employee id and the action, requires the
   Present type to exist, then dispatches on the action's code.
   */
  function Post(store: Store, actions: map<int, Action>, types: TypeTable, employee: int, actionId: int,
                today: int, now: Time, pick: nat): (r: Result<Outcome, PunchError>)
    requires LiveRecord(store, employee, today).Some? ==> ValidPick(LiveRecord(store, employee, today).value.punches, pick)
    ensures r == Failure(InvalidEmployee) <==> !Utils.ValidateEmployee(employee)
    ensures r == Failure(ActionNotFound) <==> Utils.ValidateEmployee(employee) && !UsableAction(actions, actionId)
    ensures r == Failure(PresentTypeNotFound) <==>
      Utils.ValidateEmployee(employee) && UsableAction(actions, actionId) && PresentCode !in types
    ensures r.Success? ==> employee > 0 && UsableAction(actions, actionId) && PresentCode in types
    ensures r.Success? && actions[actionId].code == CheckInCode ==> r.value.reply.CheckedIn?
    ensures r.Success? && actions[actionId].code == CheckOutCode ==> r.value.reply.CheckedOut?
    ensures r.Success? && actions[actionId].code != CheckInCode && actions[actionId].code != CheckOutCode ==>
      r.value.reply.ActionRecorded?
    ensures UsableAction(actions, actionId) && employee > 0 && PresentCode in types ==>
      r == (if actions[actionId].code == CheckInCode then CheckIn(store, employee, today, now, actions[actionId])
            else if actions[actionId].code == CheckOutCode then CheckOut(store, employee, today, now, actions[actionId], pick)
            else GenericAction(store, employee, today, now, actions[actionId]))
  {
    if !Utils.ValidateEmployee(employee) then Failure(InvalidEmployee)
    else if !UsableAction(actions, actionId) then Failure(ActionNotFound)
    else if PresentCode !in types then Failure(PresentTypeNotFound)
    else
      var action := actions[actionId];
      if action.code == CheckInCode then CheckIn(store, employee, today, now, action)
      else if action.code == CheckOutCode then CheckOut(store, employee, today, now, action, pick)
      else GenericAction(store, employee, today, now, action)
  }

  /** Every closed punch has a check-in time. */
  predicate ClosedHaveCheckIn(ps: seq<Punch>) {
    forall i :: 0 <= i < |ps| && ps[i].checkOut.Some? ==> ps[i].checkIn.Some?
  }

  /** A list's closed punches all have check-in times iff its first punch and its tail do. */
  lemma ClosedHaveCheckInTail(ps: seq<Punch>)
    requires |ps| > 0
    ensures ClosedHaveCheckIn(ps) <==>
      (ps[0].checkOut.Some? ==> ps[0].checkIn.Some?) && ClosedHaveCheckIn(ps[1..])
  {
    if ClosedHaveCheckIn(ps) {
      forall i | 0 <= i < |ps[1..]| && ps[1..][i].checkOut.Some? ensures ps[1..][i].checkIn.Some? {
        assert ps[1..][i] == ps[i + 1];
      }
    }
    if (ps[0].checkOut.Some? ==> ps[0].checkIn.Some?) && ClosedHaveCheckIn(ps[1..]) {
      forall i | 0 <= i < |ps| && ps[i].checkOut.Some? ensures ps[i].checkIn.Some? {
        if i > 0 {
          assert ps[i] == ps[1..][i - 1];
        }
      }
    }
  }

  /**
   The status view's own sum over closed punches. It combines each closed
   punch's check-in time without a check, so a closed punch lacking one makes
   the sum fail (`None`); otherwise it agrees with the utilities' sum.
   */
  function ViewWorkedMinutes(ps: seq<Punch>): (r: Option<nat>)
    ensures r.Some? <==> ClosedHaveCheckIn(ps)
    ensures r.Some? ==> r.value == Utils.WorkedMinutes(ps)
  {
    if |ps| == 0 then Some(0)
    else
      var rest := ViewWorkedMinutes(ps[1..]);
      ClosedHaveCheckInTail(ps);
      if ps[0].checkOut.None? then rest
      else if ps[0].checkIn.None? || rest.None? then None
      else Some(ClampedMinutes(ps[0].checkIn.value, ps[0].checkOut.value) + rest.value)
  }

  /**
   The status query for today. It returns no store: it only reads. Without a
   live record it reports nothing open, no punches and no minutes.
   */
  function GetStatus(store: Store, employee: Option<int>, today: int, pick: nat): (r: Result<Status, StatusError>)
    requires employee.Some? && LiveRecord(store, employee.value, today).Some? ==>
      ValidPick(LiveRecord(store, employee.value, today).value.punches, pick)
    ensures employee.None? <==> r == Failure(EmployeeParameterRequired)
    ensures employee.Some? && LiveRecord(store, employee.value, today).None? ==>
      r == Success(NoRecordStatus(employee.value, today))
    ensures r == Failure(InternalError) <==>
      employee.Some? && LiveRecord(store, employee.value, today).Some? &&
      !ClosedHaveCheckIn(LiveRecord(store, employee.value, today).value.punches)
    ensures r.Success? ==> r.value == Utils.AttendanceSummary(store, employee.value, today, pick)
  {
    match employee
    case None => Failure(EmployeeParameterRequired)
    case Some(e) =>
      match LiveRecord(store, e, today)
      case None => Success(NoRecordStatus(e, today))
      case Some(rec) =>
        var open := if HasOpen(rec.punches) then Some(rec.punches[pick]) else None;
        var worked := ViewWorkedMinutes(rec.punches);
        if worked.None? then Failure(InternalError)
        else Success(Status(e, today, open.Some?, open, |rec.punches|, worked.value))
  }

  /** On records the punch operations produce, the status query never fails. */
  lemma GetStatusTotal(store: Store, employee: int, today: int, pick: nat)
    requires WellFormedStore(store)
    requires LiveRecord(store, employee, today).Some? ==> ValidPick(LiveRecord(store, employee, today).value.punches, pick)
    ensures GetStatus(store, Some(employee), today, pick).Success?
  {
    var k := Key(employee, today);
    if LiveRecord(store, employee, today).Some? {
      assert WellFormed(store[k].punches);
    }
  }

  /** Every punch request keeps every punch carrying a check-in time. */
  lemma PostWellFormed(store: Store, actions: map<int, Action>, types: TypeTable, employee: int, actionId: int,
                       today: int, now: Time, pick: nat)
    requires WellFormedStore(store)
    requires LiveRecord(store, employee, today).Some? ==> ValidPick(LiveRecord(store, employee, today).value.punches, pick)
    ensures var r := Post(store, actions, types, employee, actionId, today, now, pick);
      r.Success? ==> WellFormedStore(r.value.store)
  {
    var r := Post(store, actions, types, employee, actionId, today, now, pick);
    var k := Key(employee, today);
    if r.Success? {
      var ps := r.value.store[k].punches;
      forall k2 | k2 in r.value.store ensures WellFormed(r.value.store[k2].punches) {
        if k2 == k {
          forall i | 0 <= i < |ps| ensures ps[i].checkIn.Some? {
            if k in store && i < |store[k].punches| {
              assert WellFormed(store[k].punches);
            }
          }
        }
      }
    }
  }

  /** A second check-in without a check-out in between is refused. */
  lemma DoubleCheckInRefused(store: Store, employee: int, today: int, t1: Time, t2: Time, a1: Action, a2: Action)
    requires CheckIn(store, employee, today, t1, a1).Success?
    ensures CheckIn(CheckIn(store, employee, today, t1, a1).value.store, employee, today, t2, a2) == Failure(AlreadyCheckedIn)
  {
    var s := CheckIn(store, employee, today, t1, a1).value.store;
    var ps := s[Key(employee, today)].punches;
    assert IsOpen(ps[|ps| - 1]);
  }

  /**
   A check-in at `t1` followed by a check-out at `t2` on a live record closes
   the new punch (the only open one) and adds exactly its clamped duration.
   */
  lemma CheckInThenCheckOut(store: Store, employee: int, today: int, t1: Time, t2: Time, a1: Action, a2: Action)
    requires CheckIn(store, employee, today, t1, a1).Success?
    requires Key(employee, today) in store ==> !store[Key(employee, today)].deleted
    ensures var s := CheckIn(store, employee, today, t1, a1).value.store;
      var n := |PunchesOf(store, employee, today)|;
      && ValidPick(s[Key(employee, today)].punches, n)
      && var r := CheckOut(s, employee, today, t2, a2, n);
      && r.Success?
      && OpenCount(r.value.store[Key(employee, today)].punches) == 0
      && r.value.reply.workedMinutes == Utils.WorkedMinutes(PunchesOf(store, employee, today)) + ClampedMinutes(t1, t2)
  {
    var k := Key(employee, today);
    var s := CheckIn(store, employee, today, t1, a1).value.store;
    var prev := PunchesOf(store, employee, today);
    var n := |prev|;
    var ps := s[k].punches;
    assert ps == prev + [OpenPunch(a1, t1)];
    HasOpenIffOpenCount(prev);
    assert ps[n] == OpenPunch(a1, t1);
    Utils.WorkedMinutesAppend(prev, OpenPunch(a1, t1));
    var r := CheckOut(s, employee, today, t2, a2, n);
    assert r.Success?;
  }
}

=== FILE: service.dfy ===
/**
 The service-layer variants of the worked-minutes sum and the absent-marking
 job (attendenceSettings/service.py).
 */
module Service {
  import opened Wrappers
  import opened Models
  import Utils

  /**
   The job's failures: the absent type is missing, or a create meets an
   existing (employee, date) record.
   */
  datatype ServiceError = AbsentTypeNotFound | DuplicateRecord

  /** The loop that sums worked minutes punch by punch; it agrees with the utilities' sum. */
  method WorkedMinutes(ps: seq<Punch>) returns (total: nat)
    ensures total == Utils.WorkedMinutes(ps)
  {
    total := 0;
    var i := 0;
    while i < |ps|
      invariant 0 <= i <= |ps|
      invariant total == Utils.WorkedMinutes(ps[..i])
    {
      Utils.WorkedMinutesAppend(ps[..i], ps[i]);
      assert ps[..i + 1] == ps[..i] + [ps[i]];
      total := total + Utils.PunchMinutes(ps[i]);
      i := i + 1;
    }
    assert ps[..i] == ps;
  }

  /**
   Marks absent every known employee without a record today. The absent type
   is looked up, regardless of its soft-delete flag, only once an employee
   needs marking, so a missing type fails only then.
   */
  function AutoMarkAbsent(store: Store, types: TypeTable, today: int): (r: Result<Store, ServiceError>)
    ensures r.Failure? <==> Utils.NeedingMark(store, today) != {} && AbsentCode !in types
    ensures Utils.NeedingMark(store, today) == {} ==> r == Success(store)
    ensures r.Success? ==>
      && (forall k :: k in store ==> k in r.value && r.value[k] == store[k])
      && (forall e :: e in Utils.NeedingMark(store, today) ==>
            Key(e, today) in r.value && r.value[Key(e, today)] == Utils.AbsentRecord(e, today))
      && (forall k :: k in r.value && k !in store ==> k.date == today && k.employee in Utils.NeedingMark(store, today))
  {
    var need := Utils.NeedingMark(store, today);
    if need == {} then Success(store)
    else if AbsentCode !in types then Failure(AbsentTypeNotFound)
    else Success(store + Utils.AbsentRecords(need, today))
  }

  /** With a live absent type configured, both variants of the job produce the same records. */
  lemma AutoMarkAbsentAgrees(store: Store, types: TypeTable, today: int)
    requires Utils.AbsentTypeAvailable(types)
    ensures AutoMarkAbsent(store, types, today) == Success(Utils.AutoMarkAbsent(store, types, today))
  {
    if Utils.NeedingMark(store, today) == {} {
      assert Utils.AbsentRecords({}, today) == map[];
      assert store + map[] == store;
    }
  }

  /**
   One run of the service loop as the source writes it. `rows` is the
   employee column of the distinct-rows query, `present` the employees with a
   record today, read once before the loop, and `typeFound` whether an "A"
   type exists. For each employee not present the type is looked up and the
   record created; the first failure stops the run, keeping the records
   created before it.
   */
  datatype ServiceRun = ServiceRun(store: Store, error: Option<ServiceError>)

  function MarkRows(store: Store, typeFound: bool, today: int, present: set<int>, rows: seq<int>): (r: ServiceRun)
    ensures forall k :: k in store ==> k in r.store && r.store[k] == store[k]
    ensures forall k :: k in r.store && k !in store ==>
      k.date == today && k.employee !in present && r.store[k] == Utils.AbsentRecord(k.employee, today)
    ensures r.error == Some(AbsentTypeNotFound) ==> !typeFound
    ensures r.error == Some(DuplicateRecord) ==> typeFound
    ensures r.error.None? ==>
      forall i :: 0 <= i < |rows| && rows[i] !in present ==> Key(rows[i], today) in r.store
    decreases |rows|
  {
    if |rows| == 0 then ServiceRun(store, None)
    else if rows[0] in present then
      var r := MarkRows(store, typeFound, today, present, rows[1..]);
      assert forall i :: 1 <= i < |rows| ==> rows[i] == rows[1..][i - 1];
      r
    else if !typeFound then ServiceRun(store, Some(AbsentTypeNotFound))
    else if Key(rows[0], today) in store then ServiceRun(store, Some(DuplicateRecord))
    else
      var r := MarkRows(store[Key(rows[0], today) := Utils.AbsentRecord(rows[0], today)], typeFound, today, present, rows[1..]);
      assert forall i :: 1 <= i < |rows| ==> rows[i] == rows[1..][i - 1];
      r
  }

  /** The service job as written, over one listed row per (employee, date) record. */
  function AutoMarkAbsentAsWritten(store: Store, types: TypeTable, today: int, listing: seq<Key>): (r: ServiceRun)
    ensures forall k :: k in store ==> k in r.store && r.store[k] == store[k]
    ensures forall k :: k in r.store && k !in store ==>
      k.date == today && Key(k.employee, today) !in store && r.store[k] == Utils.AbsentRecord(k.employee, today)
    ensures r.error == Some(AbsentTypeNotFound) ==> AbsentCode !in types
  {
    MarkRows(store, AbsentCode in types, today, Utils.PresentToday(store, today), Utils.EmployeeColumn(listing))
  }

  /**
   With the type found, the service loop makes the same records as the
   utilities' loop with a live absent type, and fails exactly where that one
   meets the (employee, date) uniqueness.
   */
  lemma {:induction false} MarkRowsAgree(store: Store, types: TypeTable, today: int, present: set<int>, rows: seq<int>)
    requires Utils.AbsentTypeAvailable(types)
    ensures var u := Utils.MarkRows(store, types, today, present, rows);
      MarkRows(store, true, today, present, rows) == ServiceRun(u.store, if u.integrityError then Some(DuplicateRecord) else None)
    decreases |rows|
  {
    if |rows| > 0 {
      if rows[0] in present {
        MarkRowsAgree(store, types, today, present, rows[1..]);
      } else if Key(rows[0], today) !in store {
        MarkRowsAgree(store[Key(rows[0], today) := Utils.AbsentRecord(rows[0], today)], types, today, present, rows[1..]);
      }
    }
  }

  /**
   A run that completes, over a listing that holds a row for every record,
   gives every employee needing marking its absent record.
   */
  lemma AutoMarkAbsentAsWrittenCompletes(store: Store, types: TypeTable, today: int, listing: seq<Key>)
    requires forall k :: k in store ==> k in listing
    ensures var r := AutoMarkAbsentAsWritten(store, types, today, listing);
      r.error.None? ==>
        forall e :: e in Utils.NeedingMark(store, today) ==>
          Key(e, today) in r.store && r.store[Key(e, today)] == Utils.AbsentRecord(e, today)
  {
    var r := AutoMarkAbsentAsWritten(store, types, today, listing);
    var rows := Utils.EmployeeColumn(listing);
    if r.error.None? {
      forall e | e in Utils.NeedingMark(store, today)
        ensures Key(e, today) in r.store && r.store[Key(e, today)] == Utils.AbsentRecord(e, today)
      {
        var k :| k in store && k.employee == e;
        var i :| 0 <= i < |listing| && listing[i] == k;
        assert rows[i] == e;
        assert e !in Utils.PresentToday(store, today);
      }
    }
  }

  /**
   The service run meets the (employee, date) uniqueness only when an
   employee with no record today is listed more than once.
   */
  lemma AutoMarkAbsentAsWrittenFailsOnRepeat(store: Store, types: TypeTable, today: int, listing: seq<Key>)
    ensures AutoMarkAbsentAsWritten(store, types, today, listing).error == Some(DuplicateRecord) ==>
      exists i, j :: 0 <= j < i < |listing| && listing[j].employee == listing[i].employee &&
        Key(listing[i].employee, today) !in store
  {
    var live := map[AbsentCode := AttendanceType(AbsentCode, None, false, false)];
    if AutoMarkAbsentAsWritten(store, types, today, listing).error == Some(DuplicateRecord) {
      MarkRowsAgree(store, live, today, Utils.PresentToday(store, today), Utils.EmployeeColumn(listing));
      Utils.AutoMarkAbsentAsWrittenFailsOnRepeat(store, live, today, listing);
    }
  }

  /**
   The records (7, day 1) and (7, day 2) list employee 7 twice: the run on
   day 3 saves (7, 3) and then fails on its uniqueness, where the corrected
   job succeeds with that one record.
   */
  lemma AutoMarkAbsentRepeatedEmployee()
    ensures var store := map[Key(7, 1) := Utils.AbsentRecord(7, 1), Key(7, 2) := Utils.AbsentRecord(7, 2)];
      var types := map[AbsentCode := AttendanceType(AbsentCode, None, false, false)];
      var r := AutoMarkAbsentAsWritten(store, types, 3, [Key(7, 2), Key(7, 1)]);
      && r == ServiceRun(store[Key(7, 3) := Utils.AbsentRecord(7, 3)], Some(DuplicateRecord))
      && AutoMarkAbsent(store, types, 3) == Success(store[Key(7, 3) := Utils.AbsentRecord(7, 3)])
  {
    var store := map[Key(7, 1) := Utils.AbsentRecord(7, 1), Key(7, 2) := Utils.AbsentRecord(7, 2)];
    var types := map[AbsentCode := AttendanceType(AbsentCode, None, false, false)];
    Utils.AutoMarkAbsentRepeatedEmployee();
    Utils.AutoMarkAbsentRepeatedEmployeeCorrected();
    assert Key(7, 1) in store;
    assert 7 in Utils.NeedingMark(store, 3);
    var present := Utils.PresentToday(store, 3);
    var rows := Utils.EmployeeColumn([Key(7, 2), Key(7, 1)]);
    assert rows == [7, 7];
    var s1 := store[Key(7, 3) := Utils.AbsentRecord(7, 3)];
    assert MarkRows(store, true, 3, present, rows) == MarkRows(s1, true, 3, present, [7]);
    AutoMarkAbsentAgrees(store, types, 3);
  }

  /**
   The corrected service job is the loop over a listing that names each known
   employee once: with an "A" type it never fails and leaves the store
   `AutoMarkAbsent` returns.
   */
  lemma AutoMarkAbsentIsDistinctLoop(store: Store, types: TypeTable, today: int, rows: seq<int>)
    requires AbsentCode in types
    requires Utils.NoRepeats(rows)
    requires forall e :: e in Utils.Employees(store) <==> e in rows
    ensures AutoMarkAbsent(store, types, today).Success?
    ensures MarkRows(store, true, today, Utils.PresentToday(store, today), rows) ==
      ServiceRun(AutoMarkAbsent(store, types, today).value, None)
  {
    var live := map[AbsentCode := AttendanceType(AbsentCode, None, false, false)];
    Utils.AutoMarkAbsentIsDistinctLoop(store, live, today, rows);
    MarkRowsAgree(store, live, today, Utils.PresentToday(store, today), rows);
    AutoMarkAbsentAgrees(store, live, today);
  }
}

=== FILE: setup_actions.dfy ===
/**
 The seeding command that creates the default attendance actions
 (attendenceSettings/management/commands/setup_actions.py).

 Actions are keyed by their unique code. Each default is looked up by code
 and created with its name, description and `is_active` only when the code
 is absent. Action names are unique too, so creating a default whose name is
 already held by an action under another code fails; the command runs outside
 a transaction, so the actions created before that failure remain.
 */
module SetupActions {
  import opened Wrappers
  import opened Models

  datatype ActionSpec = ActionSpec(name: string, code: string, description: string)

  /** Actions keyed by code. */
  type ActionTable = map<string, Action>

  datatype SeedOutcome =
    | Seeded(actions: ActionTable, created: nat)
    | NameClash(actions: ActionTable, code: string)

  const DefaultCategory: string := "attendance"

  const DefaultActions: seq<ActionSpec> := [
    ActionSpec("Check In", "check_in", "Employee check-in"),
    ActionSpec("Check Out", "check_out", "Employee check-out"),
    ActionSpec("Break Start", "break_start", "Start of break time"),
    ActionSpec("Break End", "break_end", "End of break time"),
    ActionSpec("Lunch Start", "lunch_start", "Start of lunch break"),
    ActionSpec("Lunch End", "lunch_end", "End of lunch break"),
    ActionSpec("Half Day", "half_day", "Half day attendance"),
    ActionSpec("Work From Home", "wfh", "Work from home"),
    ActionSpec("Meeting", "meeting", "In meeting"),
    ActionSpec("Training", "training", "In training session")
  ]

  /** The action created for a default that is not there yet. */
  function Created(spec: ActionSpec): Action {
    Action(spec.code, spec.name, Some(spec.description), DefaultCategory, true, false)
  }

  /** The codes of a list of defaults. */
  function Codes(specs: seq<ActionSpec>): set<string> {
    set i | 0 <= i < |specs| :: specs[i].code
  }

  predicate DistinctCodes(specs: seq<ActionSpec>) {
    forall i, j :: 0 <= i < j < |specs| ==> specs[i].code != specs[j].code
  }

  predicate DistinctNames(specs: seq<ActionSpec>) {
    forall i, j :: 0 <= i < j < |specs| ==> specs[i].name != specs[j].name
  }

  /** Some action already carries `name`. */
  predicate NameTaken(m: ActionTable, name: string) {
    exists c :: c in m && m[c].name == name
  }

  /** No action holds a default's name under a code other than that default's. */
  predicate NamesCompatible(m: ActionTable, specs: seq<ActionSpec>) {
    forall c, i :: c in m && 0 <= i < |specs| && m[c].name == specs[i].name ==> c == specs[i].code
  }

  /**
   The get-or-create loop over `specs`, counting the actions it creates. A
   failure names a default whose code was missing and whose name an action
   already held when its turn came.
   */
  function Seed(m: ActionTable, specs: seq<ActionSpec>): (r: SeedOutcome)
    ensures r.NameClash? ==> r.code !in m
    ensures r.NameClash? ==> exists i :: 0 <= i < |specs| && specs[i].code == r.code && NameTaken(r.actions, specs[i].name)
    decreases |specs|
  {
    if |specs| == 0 then Seeded(m, 0)
    else
      var spec := specs[0];
      if spec.code in m then
        var r := Seed(m, specs[1..]);
        assert r.NameClash? ==> exists i :: 0 <= i < |specs| && specs[i].code == r.code && NameTaken(r.actions, specs[i].name) by {
          if r.NameClash? {
            var i :| 0 <= i < |specs[1..]| && specs[1..][i].code == r.code && NameTaken(r.actions, specs[1..][i].name);
            assert specs[i + 1] == specs[1..][i];
          }
        }
        r
      else if NameTaken(m, spec.name) then NameClash(m, spec.code)
      else
        var r := Seed(m[spec.code := Created(spec)], specs[1..]);
        assert r.NameClash? ==> exists i :: 0 <= i < |specs| && specs[i].code == r.code && NameTaken(r.actions, specs[i].name) by {
          if r.NameClash? {
            var i :| 0 <= i < |specs[1..]| && specs[1..][i].code == r.code && NameTaken(r.actions, specs[1..][i].name);
            assert specs[i + 1] == specs[1..][i];
          }
        }
        match r
        case Seeded(m', n) => Seeded(m', n + 1)
        case NameClash(m', c) => NameClash(m', c)
  }

  /**
   The seeding command: get-or-create every default action by code. It
   completes whenever no other code holds a default's name.
   */
  function Handle(m: ActionTable): (r: SeedOutcome)
    ensures NamesCompatible(m, DefaultActions) ==> r.Seeded?
    ensures r.NameClash? ==> r.code in Codes(DefaultActions) && r.code !in m
  {
    DefaultNamesDistinct();
    if NamesCompatible(m, DefaultActions) then SeedCompletes(m, DefaultActions); Seed(m, DefaultActions)
    else Seed(m, DefaultActions)
  }

  lemma {:induction false} CodesTail(specs: seq<ActionSpec>)
    requires |specs| > 0
    ensures Codes(specs) == {specs[0].code} + Codes(specs[1..])
  {
    forall c | c in Codes(specs) ensures c in {specs[0].code} + Codes(specs[1..]) {
      var i :| 0 <= i < |specs| && specs[i].code == c;
      if i > 0 {
        assert specs[1..][i - 1].code == c;
      }
    }
    forall c | c in Codes(specs[1..]) ensures c in Codes(specs) {
      var i :| 0 <= i < |specs[1..]| && specs[1..][i].code == c;
      assert specs[i + 1].code == c;
    }
  }

  /** The defaults after the first still have distinct codes, none of them the first's. */
  lemma DistinctCodesTail(specs: seq<ActionSpec>)
    requires |specs| > 0 && DistinctCodes(specs)
    ensures DistinctCodes(specs[1..])
    ensures specs[0].code !in Codes(specs[1..])
  {
    var rest := specs[1..];
    forall i, j | 0 <= i < j < |rest| ensures rest[i].code != rest[j].code {
      assert rest[i] == specs[i + 1] && rest[j] == specs[j + 1];
    }
    forall j | 0 <= j < |rest| ensures rest[j].code != specs[0].code {
      assert rest[j] == specs[j + 1];
    }
  }

  /** The defaults after the first still have distinct names, none of them the first's. */
  lemma DistinctNamesTail(specs: seq<ActionSpec>)
    requires |specs| > 0 && DistinctNames(specs)
    ensures DistinctNames(specs[1..])
    ensures forall j :: 0 <= j < |specs[1..]| ==> specs[1..][j].name != specs[0].name
  {
    var rest := specs[1..];
    forall i, j | 0 <= i < j < |rest| ensures rest[i].name != rest[j].name {
      assert rest[i] == specs[i + 1] && rest[j] == specs[j + 1];
    }
    forall j | 0 <= j < |rest| ensures rest[j].name != specs[0].name {
      assert rest[j] == specs[j + 1];
    }
  }

  /**
   Seeding never modifies or removes an action that was already there, and
   every action it adds is the created form of a default with that code.
   */
  lemma {:induction false} SeedKeepsExisting(m: ActionTable, specs: seq<ActionSpec>)
    ensures forall c :: c in m ==> c in Seed(m, specs).actions && Seed(m, specs).actions[c] == m[c]
    ensures forall c :: c in Seed(m, specs).actions && c !in m ==>
      exists i :: 0 <= i < |specs| && specs[i].code == c && Seed(m, specs).actions[c] == Created(specs[i])
    decreases |specs|
  {
    if |specs| > 0 {
      var spec := specs[0];
      var r := Seed(m, specs).actions;
      if spec.code in m {
        SeedKeepsExisting(m, specs[1..]);
        forall c | c in r && c !in m
          ensures exists i :: 0 <= i < |specs| && specs[i].code == c && r[c] == Created(specs[i])
        {
          var i :| 0 <= i < |specs[1..]| && specs[1..][i].code == c && r[c] == Created(specs[1..][i]);
          assert specs[i + 1] == specs[1..][i];
        }
      } else if !NameTaken(m, spec.name) {
        var m1 := m[spec.code := Created(spec)];
        SeedKeepsExisting(m1, specs[1..]);
        forall c | c in r && c !in m
          ensures exists i :: 0 <= i < |specs| && specs[i].code == c && r[c] == Created(specs[i])
        {
          if c == spec.code {
            assert c in m1;
            assert specs[0].code == c && r[c] == Created(specs[0]);
          } else {
            assert c !in m1;
            var i :| 0 <= i < |specs[1..]| && specs[1..][i].code == c && r[c] == Created(specs[1..][i]);
            assert specs[i + 1] == specs[1..][i];
          }
        }
      }
    }
  }

  /** A completed run leaves every default code present. */
  lemma {:induction false} SeedCoversDefaults(m: ActionTable, specs: seq<ActionSpec>)
    requires Seed(m, specs).Seeded?
    ensures forall i :: 0 <= i < |specs| ==> specs[i].code in Seed(m, specs).actions
    decreases |specs|
  {
    if |specs| > 0 {
      var spec := specs[0];
      var m1 := if spec.code in m then m else m[spec.code := Created(spec)];
      SeedCoversDefaults(m1, specs[1..]);
      SeedKeepsExisting(m1, specs[1..]);
      forall i | 0 <= i < |specs| ensures specs[i].code in Seed(m, specs).actions {
        if i > 0 {
          assert specs[i] == specs[1..][i - 1];
        }
      }
    }
  }

  /** A completed run creates exactly one action per default code that was absent beforehand. */
  lemma {:induction false} SeedCount(m: ActionTable, specs: seq<ActionSpec>)
    requires DistinctCodes(specs)
    requires Seed(m, specs).Seeded?
    ensures Seed(m, specs).created == |Codes(specs) - m.Keys|
    decreases |specs|, 1
  {
    if |specs| == 0 {
      assert Codes(specs) == {};
    } else {
      var spec := specs[0];
      var rest := specs[1..];
      CodesTail(specs);
      DistinctCodesTail(specs);
      assert Codes(specs) == {spec.code} + Codes(rest) && spec.code !in Codes(rest);
      if spec.code in m {
        SeedPresentStep(m, specs);
        SeedCount(m, rest);
        CountPresentStep(Seed(m, specs).created, Codes(rest), m.Keys, spec.code);
      } else {
        SeedCountCreate(m, specs);
      }
    }
  }

  /** The counting step for a default whose code is absent. */
  lemma {:induction false} SeedCountCreate(m: ActionTable, specs: seq<ActionSpec>)
    requires |specs| > 0 && specs[0].code !in m
    requires DistinctCodes(specs[1..]) && specs[0].code !in Codes(specs[1..])
    requires Codes(specs) == {specs[0].code} + Codes(specs[1..])
    requires Seed(m, specs).Seeded?
    ensures Seed(m, specs).created == |Codes(specs) - m.Keys|
    decreases |specs|, 0
  {
    var c, rest := specs[0].code, specs[1..];
    var m1 := m[c := Created(specs[0])];
    SeedCreateStep(m, specs);
    SeedCount(m1, rest);
    MissingCreateStep(Codes(rest), m.Keys, m1.Keys, c);
  }

  /** Adding a present code to the defaults leaves the missing count unchanged. */
  lemma CountPresentStep(n: nat, rest: set<string>, present: set<string>, c: string)
    requires c !in rest && c in present
    requires n == |rest - present|
    ensures n == |({c} + rest) - present|
  {
    assert ({c} + rest) - present == rest - present;
  }

  /** Adding an absent code to the defaults, and then creating it, raises the missing count by one. */
  lemma MissingCreateStep(rest: set<string>, present: set<string>, after: set<string>, c: string)
    requires c !in rest && c !in present
    requires after == present + {c}
    ensures |({c} + rest) - present| == |rest - after| + 1
  {
    assert rest - after == rest - present;
    assert ({c} + rest) - present == {c} + (rest - present);
  }

  /** A default whose code is present is skipped. */
  lemma SeedPresentStep(m: ActionTable, specs: seq<ActionSpec>)
    requires |specs| > 0 && specs[0].code in m
    ensures Seed(m, specs) == Seed(m, specs[1..])
  {
  }

  /** A default whose code is absent is created, and counted when the rest of the run completes. */
  lemma SeedCreateStep(m: ActionTable, specs: seq<ActionSpec>)
    requires |specs| > 0 && specs[0].code !in m
    requires Seed(m, specs).Seeded?
    ensures m[specs[0].code := Created(specs[0])].Keys == m.Keys + {specs[0].code}
    ensures Seed(m[specs[0].code := Created(specs[0])], specs[1..]).Seeded?
    ensures Seed(m, specs).created == Seed(m[specs[0].code := Created(specs[0])], specs[1..]).created + 1
  {
  }

  /** With distinct default names that no other code holds, the run never fails. */
  lemma {:induction false} SeedCompletes(m: ActionTable, specs: seq<ActionSpec>)
    requires DistinctNames(specs)
    requires NamesCompatible(m, specs)
    ensures Seed(m, specs).Seeded?
    decreases |specs|
  {
    if |specs| > 0 {
      var spec := specs[0];
      var rest := specs[1..];
      assert NamesCompatible(m, rest) by {
        forall c, i | c in m && 0 <= i < |rest| && m[c].name == rest[i].name ensures c == rest[i].code {
          assert rest[i] == specs[i + 1];
        }
      }
      DistinctNamesTail(specs);
      if spec.code in m {
        SeedCompletes(m, rest);
      } else {
        var m1 := m[spec.code := Created(spec)];
        SeedCompletes(m1, rest);
      }
    }
  }

  /** When every default code is already present, a run creates nothing and changes nothing. */
  lemma {:induction false} SeedNothingMissing(m: ActionTable, specs: seq<ActionSpec>)
    requires forall i :: 0 <= i < |specs| ==> specs[i].code in m
    ensures Seed(m, specs) == Seeded(m, 0)
    decreases |specs|
  {
    if |specs| > 0 {
      assert specs[0].code in m;
      forall i | 0 <= i < |specs[1..]| ensures specs[1..][i].code in m {
        assert specs[1..][i] == specs[i + 1];
      }
      SeedNothingMissing(m, specs[1..]);
    }
  }

  /** The default list has distinct codes. */
  lemma DefaultCodesDistinct()
    ensures DistinctCodes(DefaultActions)
  {
  }

  /** The default list has distinct names. */
  lemma DefaultNamesDistinct()
    ensures DistinctNames(DefaultActions)
  {
  }

  /**
   A run over defaults with distinct codes and names, none held by another
   code, completes, leaves every default code present, keeps every existing
   action, adds only created defaults, and counts the codes that were missing.
   */
  lemma SeedSpec(m: ActionTable, specs: seq<ActionSpec>)
    requires DistinctCodes(specs) && DistinctNames(specs)
    requires NamesCompatible(m, specs)
    ensures Seed(m, specs).Seeded?
    ensures forall i :: 0 <= i < |specs| ==> specs[i].code in Seed(m, specs).actions
    ensures forall c :: c in m ==> c in Seed(m, specs).actions && Seed(m, specs).actions[c] == m[c]
    ensures forall c :: c in Seed(m, specs).actions && c !in m ==>
      exists i :: 0 <= i < |specs| && specs[i].code == c && Seed(m, specs).actions[c] == Created(specs[i])
    ensures Seed(m, specs).created == |Codes(specs) - m.Keys|
  {
    SeedCompletes(m, specs);
    SeedCoversDefaults(m, specs);
    SeedKeepsExisting(m, specs);
    SeedCount(m, specs);
  }

  /**
   The seeding command, when no other code holds a default's name: the run
   completes, leaves all ten default codes present, keeps every action that
   was there, adds only created defaults, and counts one creation per default
   code that was missing.
   */
  lemma HandleSpec(m: ActionTable)
    requires NamesCompatible(m, DefaultActions)
    ensures Handle(m).Seeded?
    ensures forall i :: 0 <= i < |DefaultActions| ==> DefaultActions[i].code in Handle(m).actions
    ensures forall c :: c in m ==> c in Handle(m).actions && Handle(m).actions[c] == m[c]
    ensures forall c :: c in Handle(m).actions && c !in m ==>
      exists i :: 0 <= i < |DefaultActions| && DefaultActions[i].code == c && Handle(m).actions[c] == Created(DefaultActions[i])
    ensures Handle(m).created == |Codes(DefaultActions) - m.Keys|
  {
    DefaultNamesDistinct();
    DefaultCodesDistinct();
    SeedSpec(m, DefaultActions);
  }

  /** Running the command again after a completed run creates nothing and changes nothing. */
  lemma HandleIdempotent(m: ActionTable)
    ensures Handle(m).Seeded? ==> Handle(Handle(m).actions) == Seeded(Handle(m).actions, 0)
  {
    if Handle(m).Seeded? {
      SeedCoversDefaults(m, DefaultActions);
      SeedNothingMissing(Handle(m).actions, DefaultActions);
    }
  }
}

=== FILE: utils.dfy ===
/**
 The time arithmetic, validation helpers, status summary and absent-marking
 job of the attendance settings utilities (attendenceSettings/utils.py).
 */
module Utils {
  import opened Wrappers
  import opened Clock
  import opened Models

  const DefaultShiftMinutes: nat := 480
  const AbsentRemark: string := "Auto-marked absent"

  /** What one punch adds to the worked minutes: its clamped duration when both times are set. */
  function PunchMinutes(p: Punch): (m: nat)
    ensures p.checkIn.None? || p.checkOut.None? ==> m == 0
    ensures p.checkIn.Some? && p.checkOut.Some? && p.checkOut.value <= p.checkIn.value ==> m == 0
    ensures p.checkIn.Some? && p.checkOut.Some? && p.checkIn.value <= p.checkOut.value ==>
      m * MicrosPerMinute <= p.checkOut.value - p.checkIn.value < (m + 1) * MicrosPerMinute
  {
    if p.checkIn.Some? && p.checkOut.Some? then ClampedMinutes(p.checkIn.value, p.checkOut.value) else 0
  }

  /** Total worked minutes of a day's punches; punches missing either time add nothing. */
  function WorkedMinutes(ps: seq<Punch>): (total: nat)
    ensures (forall i :: 0 <= i < |ps| ==> PunchMinutes(ps[i]) == 0) ==> total == 0
    ensures forall i :: 0 <= i < |ps| ==> PunchMinutes(ps[i]) <= total
  {
    if |ps| == 0 then 0 else PunchMinutes(ps[0]) + WorkedMinutes(ps[1..])
  }

  /** Worked minutes are additive over a split of the punch list. */
  lemma {:induction false} WorkedMinutesConcat(a: seq<Punch>, b: seq<Punch>)
    ensures WorkedMinutes(a + b) == WorkedMinutes(a) + WorkedMinutes(b)
  {
    if |a| > 0 {
      assert (a + b)[1..] == a[1..] + b;
      WorkedMinutesConcat(a[1..], b);
    } else {
      assert a + b == b;
    }
  }

  /** Appending a punch adds exactly its own contribution; an open punch adds nothing. */
  lemma WorkedMinutesAppend(ps: seq<Punch>, p: Punch)
    ensures WorkedMinutes(ps + [p]) == WorkedMinutes(ps) + PunchMinutes(p)
    ensures IsOpen(p) ==> WorkedMinutes(ps + [p]) == WorkedMinutes(ps)
  {
    WorkedMinutesConcat(ps, [p]);
    assert WorkedMinutes([p]) == PunchMinutes(p) + WorkedMinutes([]);
  }

  /** Replacing one punch changes the total by the difference of the two contributions. */
  lemma {:induction false} WorkedMinutesUpdate(ps: seq<Punch>, i: nat, q: Punch)
    requires i < |ps|
    ensures WorkedMinutes(ps[i := q]) == WorkedMinutes(ps) - PunchMinutes(ps[i]) + PunchMinutes(q)
  {
    if i > 0 {
      assert ps[i := q][1..] == ps[1..][i - 1 := q];
      WorkedMinutesUpdate(ps[1..], i - 1, q);
    } else {
      assert ps[i := q][1..] == ps[1..];
    }
  }

  /** The sub-shift start, when the record has a sub-shift with a start time. */
  function ShiftStart(sub: Option<SubShift>): Option<Time> {
    if sub.Some? then sub.value.timeStart else None
  }

  /** The record's sub-shift has both a start and an end time. */
  predicate HasCompleteWindow(sub: Option<SubShift>) {
    sub.Some? && sub.value.timeStart.Some? && sub.value.timeEnd.Some?
  }

  /**
   Minutes late at `checkIn`: 0 without a sub-shift start or when the check-in
   is at or before it, otherwise the whole minutes elapsed since the start.
   */
  function LateMinutes(sub: Option<SubShift>, checkIn: Time): (late: nat)
    ensures ShiftStart(sub).None? ==> late == 0
    ensures ShiftStart(sub).Some? && checkIn <= ShiftStart(sub).value ==> late == 0
    ensures ShiftStart(sub).Some? && checkIn >= ShiftStart(sub).value ==>
      late * MicrosPerMinute <= checkIn - ShiftStart(sub).value < (late + 1) * MicrosPerMinute
  {
    if ShiftStart(sub).None? then 0 else ClampedMinutes(ShiftStart(sub).value, checkIn)
  }

  /** For a fixed sub-shift, a later check-in is never less late. */
  lemma LateMinutesMonotone(sub: Option<SubShift>, t1: Time, t2: Time)
    requires t1 <= t2
    ensures LateMinutes(sub, t1) <= LateMinutes(sub, t2)
  {
    if ShiftStart(sub).Some? {
      var s := ShiftStart(sub).value;
      if t1 > s {
        var l1, l2 := LateMinutes(sub, t1), LateMinutes(sub, t2);
        assert l1 * MicrosPerMinute <= t1 - s <= t2 - s < (l2 + 1) * MicrosPerMinute;
      }
    }
  }

  /**
   The shift length overtime is measured against: 480 minutes unless the
   sub-shift has both bounds, then the clamped whole minutes between them.
   */
  function ShiftMinutes(sub: Option<SubShift>): (m: nat)
    ensures !HasCompleteWindow(sub) ==> m == DefaultShiftMinutes
    ensures HasCompleteWindow(sub) && sub.value.timeEnd.value <= sub.value.timeStart.value ==> m == 0
    ensures HasCompleteWindow(sub) && sub.value.timeEnd.value >= sub.value.timeStart.value ==>
      m * MicrosPerMinute <= sub.value.timeEnd.value - sub.value.timeStart.value < (m + 1) * MicrosPerMinute
  {
    if HasCompleteWindow(sub) then ClampedMinutes(sub.value.timeStart.value, sub.value.timeEnd.value)
    else DefaultShiftMinutes
  }

  /** Minutes worked beyond the shift length, never negative. */
  function OvertimeMinutes(sub: Option<SubShift>, worked: int): (ot: nat)
    ensures ot >= worked - ShiftMinutes(sub)
    ensures ot == 0 || ot == worked - ShiftMinutes(sub)
    ensures worked <= ShiftMinutes(sub) ==> ot == 0
  {
    if worked - ShiftMinutes(sub) > 0 then worked - ShiftMinutes(sub) else 0
  }

  /** Without a complete sub-shift window the shift is 480 minutes long. */
  lemma OvertimeDefaultShift(sub: Option<SubShift>, worked: int)
    requires !HasCompleteWindow(sub)
    ensures worked > 480 ==> OvertimeMinutes(sub, worked) == worked - 480
    ensures worked <= 480 ==> OvertimeMinutes(sub, worked) == 0
  {
  }

  /** A window whose end precedes its start has length 0, so every worked minute is overtime. */
  lemma OvertimeInvertedWindow(sub: Option<SubShift>, worked: nat)
    requires HasCompleteWindow(sub) && sub.value.timeEnd.value < sub.value.timeStart.value
    ensures OvertimeMinutes(sub, worked) == worked
  {
  }

  /**
   Length of a break in whole minutes, truncated toward zero and not clamped:
   0 for an empty break and non-positive when the end precedes the start.
   */
  function BreakDuration(breakStart: Time, breakEnd: Time): (m: int)
    ensures breakStart == breakEnd ==> m == 0
    ensures breakEnd >= breakStart ==> 0 <= m && m * MicrosPerMinute <= breakEnd - breakStart < (m + 1) * MicrosPerMinute
    ensures breakEnd < breakStart ==> m <= 0 && -m * MicrosPerMinute <= breakStart - breakEnd < (-m + 1) * MicrosPerMinute
  {
    MinutesBetween(breakStart, breakEnd)
  }

  /** Any positive id is taken to name an existing employee. */
  function ValidateEmployee(employee: int): (valid: bool)
    ensures valid <==> employee >= 1
  {
    employee > 0
  }

  /** Whether some punch was opened by action `code` and is still open. */
  function CheckDuplicatePunch(ps: seq<Punch>, code: string): (dup: bool)
    ensures dup <==> exists i :: 0 <= i < |ps| && ps[i].action == code && IsOpen(ps[i])
  {
    if |ps| == 0 then false
    else if ps[0].action == code && IsOpen(ps[0]) then true
    else
      var rest := CheckDuplicatePunch(ps[1..], code);
      assert rest ==> exists i :: 0 <= i < |ps| && ps[i].action == code && IsOpen(ps[i]) by {
        if rest {
          var j :| 0 <= j < |ps[1..]| && ps[1..][j].action == code && IsOpen(ps[1..][j]);
          assert ps[j + 1] == ps[1..][j];
        }
      }
      assert (exists i :: 0 <= i < |ps| && ps[i].action == code && IsOpen(ps[i])) ==> rest by {
        if exists i :: 0 <= i < |ps| && ps[i].action == code && IsOpen(ps[i]) {
          var i :| 0 <= i < |ps| && ps[i].action == code && IsOpen(ps[i]);
          assert i > 0;
          assert ps[1..][i - 1] == ps[i];
        }
      }
      rest
  }

  /** An open duplicate punch is in particular an open punch. */
  lemma DuplicateImpliesOpen(ps: seq<Punch>, code: string)
    requires CheckDuplicatePunch(ps, code)
    ensures HasOpen(ps)
  {
    var i :| 0 <= i < |ps| && ps[i].action == code && IsOpen(ps[i]);
  }

  /**
   The attendance summary of `employee` on `date`: which punch is open, how
   many punches there are, and the worked minutes over closed punches.
   */
  function AttendanceSummary(store: Store, employee: int, date: int, pick: nat): (s: Status)
    requires LiveRecord(store, employee, date).Some? ==> ValidPick(LiveRecord(store, employee, date).value.punches, pick)
    ensures LiveRecord(store, employee, date).None? ==> s == NoRecordStatus(employee, date)
    ensures LiveRecord(store, employee, date).Some? ==>
      var ps := LiveRecord(store, employee, date).value.punches;
      && s.employee == employee && s.date == date
      && (s.isCheckedIn <==> HasOpen(ps))
      && (s.currentPunch.Some? <==> HasOpen(ps))
      && (s.currentPunch.Some? ==> s.currentPunch.value in ps && IsOpen(s.currentPunch.value))
      && s.totalPunches == |ps|
      && s.workedMinutes == WorkedMinutes(ps)
  {
    match LiveRecord(store, employee, date)
    case None => NoRecordStatus(employee, date)
    case Some(rec) =>
      var open := if HasOpen(rec.punches) then Some(rec.punches[pick]) else None;
      Status(employee, date, open.Some?, open, |rec.punches|, WorkedMinutes(rec.punches))
  }

  /** Every employee that has an attendance record on any day. */
  function Employees(store: Store): set<int> {
    set k | k in store :: k.employee
  }

  /** Employees with some attendance record, deleted or not, dated `today`. */
  function PresentToday(store: Store, today: int): set<int> {
    set k | k in store && k.date == today :: k.employee
  }

  /** Employees the absent-marking job has to mark on `today`. */
  function NeedingMark(store: Store, today: int): (need: set<int>)
    ensures forall e :: e in need <==> e in Employees(store) && Key(e, today) !in store
  {
    assert forall e :: e in PresentToday(store, today) <==> Key(e, today) in store by {
      forall e ensures e in PresentToday(store, today) <==> Key(e, today) in store {
        if e in PresentToday(store, today) {
          var k :| k in store && k.date == today && k.employee == e;
          assert k == Key(e, today);
        }
      }
    }
    Employees(store) - PresentToday(store, today)
  }

  /** The record the job creates for an absent employee. */
  function AbsentRecord(employee: int, today: int): DayRecord {
    DayRecord(employee, today, None, Some(AbsentCode), [], None, None, Some(AbsentRemark), false)
  }

  /** The records created for the employees in `need`. */
  function AbsentRecords(need: set<int>, today: int): (m: Store)
    ensures forall k :: k in m <==> k.date == today && k.employee in need
    ensures forall k :: k in m ==> m[k] == AbsentRecord(k.employee, today)
  {
    map e | e in need :: Key(e, today) := AbsentRecord(e, today)
  }

  /** A live (not soft-deleted) absent type is configured. */
  predicate AbsentTypeAvailable(types: TypeTable) {
    AbsentCode in types && !types[AbsentCode].deleted
  }

  /**
   Marks absent every known employee without a record today, when the absent
   type is configured; otherwise nothing is created.
   */
  function AutoMarkAbsent(store: Store, types: TypeTable, today: int): (r: Store)
    ensures !AbsentTypeAvailable(types) ==> r == store
    ensures forall k :: k in store ==> k in r && r[k] == store[k]
    ensures AbsentTypeAvailable(types) ==>
      forall e :: e in NeedingMark(store, today) ==>
        Key(e, today) in r && r[Key(e, today)] == AbsentRecord(e, today)
    ensures forall k :: k in r && k !in store ==>
      AbsentTypeAvailable(types) && k.date == today && k.employee in NeedingMark(store, today)
  {
    if AbsentTypeAvailable(types) then store + AbsentRecords(NeedingMark(store, today), today) else store
  }

  /** The job creates no employees: everyone it marks was already known. */
  lemma AutoMarkAbsentKeepsEmployees(store: Store, types: TypeTable, today: int)
    ensures Employees(AutoMarkAbsent(store, types, today)) == Employees(store)
  {
    var r := AutoMarkAbsent(store, types, today);
    forall e | e in Employees(r) ensures e in Employees(store) {
      var k :| k in r && k.employee == e;
    }
    forall e | e in Employees(store) ensures e in Employees(r) {
      var k :| k in store && k.employee == e;
      assert k in r;
    }
  }

  /** After a run with the absent type configured, nobody is left to mark. */
  lemma AutoMarkAbsentLeavesNoneToMark(store: Store, types: TypeTable, today: int)
    requires AbsentTypeAvailable(types)
    ensures NeedingMark(AutoMarkAbsent(store, types, today), today) == {}
  {
    var r := AutoMarkAbsent(store, types, today);
    AutoMarkAbsentKeepsEmployees(store, types, today);
    forall e | e in Employees(r) ensures Key(e, today) in r {
      assert e in Employees(store);
    }
    assert forall e :: e !in NeedingMark(r, today);
  }

  /** With nobody left to mark, the job leaves the store as it is. */
  lemma AutoMarkAbsentNoneNeeded(store: Store, types: TypeTable, today: int)
    requires NeedingMark(store, today) == {}
    ensures AutoMarkAbsent(store, types, today) == store
  {
    assert AbsentRecords({}, today) == map[];
    assert store + map[] == store;
  }

  /** Running the job twice in a day has the effect of running it once. */
  lemma AutoMarkAbsentIdempotent(store: Store, types: TypeTable, today: int)
    ensures AutoMarkAbsent(AutoMarkAbsent(store, types, today), types, today) == AutoMarkAbsent(store, types, today)
  {
    if AbsentTypeAvailable(types) {
      AutoMarkAbsentLeavesNoneToMark(store, types, today);
      AutoMarkAbsentNoneNeeded(AutoMarkAbsent(store, types, today), types, today);
    }
  }

  /** Records created by the job have no punches, so well-formedness is kept. */
  lemma AutoMarkAbsentWellFormed(store: Store, types: TypeTable, today: int)
    requires WellFormedStore(store)
    ensures WellFormedStore(AutoMarkAbsent(store, types, today))
  {
  }

  /**
   One run of the absent-marking loop as the source writes it. `rows` is the
   employee column of the distinct-rows query in the order the store returns
   it; `present` is the set of employees with a record today, read once
   before the loop. A create that meets an existing (employee, date) record
   violates the uniqueness of that pair: the run stops there, keeping the
   records it already created.
   */
  datatype MarkRun = MarkRun(store: Store, integrityError: bool)

  /**
   Some listed employee not present meets a record for today: one already in
   `store`, or the one created for an earlier listing of the same employee.
   */
  predicate Collides(store: Store, today: int, present: set<int>, rows: seq<int>) {
    exists i :: 0 <= i < |rows| && rows[i] !in present &&
      (Key(rows[i], today) in store || exists j :: 0 <= j < i && rows[j] == rows[i])
  }

  /** A collision further down the listing is a collision of the whole listing. */
  lemma CollidesSkip(store: Store, today: int, present: set<int>, rows: seq<int>)
    requires |rows| > 0 && Collides(store, today, present, rows[1..])
    ensures Collides(store, today, present, rows)
  {
    var i :| 0 <= i < |rows[1..]| && rows[1..][i] !in present &&
      (Key(rows[1..][i], today) in store || exists j :: 0 <= j < i && rows[1..][j] == rows[1..][i]);
    assert rows[i + 1] == rows[1..][i];
    if Key(rows[1..][i], today) !in store {
      var j :| 0 <= j < i && rows[1..][j] == rows[1..][i];
      assert rows[j + 1] == rows[i + 1];
    }
  }

  /** A collision after creating the first employee's record is a collision of the whole listing. */
  lemma CollidesAfterCreate(store: Store, today: int, present: set<int>, rows: seq<int>, rec: DayRecord)
    requires |rows| > 0 && rows[0] !in present
    requires Collides(store[Key(rows[0], today) := rec], today, present, rows[1..])
    ensures Collides(store, today, present, rows)
  {
    var s1 := store[Key(rows[0], today) := rec];
    var i :| 0 <= i < |rows[1..]| && rows[1..][i] !in present &&
      (Key(rows[1..][i], today) in s1 || exists j :: 0 <= j < i && rows[1..][j] == rows[1..][i]);
    assert rows[i + 1] == rows[1..][i];
    if Key(rows[1..][i], today) !in store {
      if Key(rows[1..][i], today) in s1 {
        assert rows[0] == rows[i + 1];
      } else {
        var j :| 0 <= j < i && rows[1..][j] == rows[1..][i];
        assert rows[j + 1] == rows[i + 1];
      }
    }
  }

  function MarkRows(store: Store, types: TypeTable, today: int, present: set<int>, rows: seq<int>): (r: MarkRun)
    ensures !AbsentTypeAvailable(types) ==> r == MarkRun(store, false)
    ensures forall k :: k in store ==> k in r.store && r.store[k] == store[k]
    ensures forall k :: k in r.store && k !in store ==>
      k.date == today && k.employee !in present && r.store[k] == AbsentRecord(k.employee, today)
    ensures AbsentTypeAvailable(types) && !r.integrityError ==>
      forall i :: 0 <= i < |rows| && rows[i] !in present ==> Key(rows[i], today) in r.store
    ensures r.integrityError ==> Collides(store, today, present, rows)
    decreases |rows|
  {
    if |rows| == 0 || !AbsentTypeAvailable(types) then MarkRun(store, false)
    else if rows[0] in present then
      var r := MarkRows(store, types, today, present, rows[1..]);
      assert forall i :: 1 <= i < |rows| ==> rows[i] == rows[1..][i - 1];
      if r.integrityError then CollidesSkip(store, today, present, rows); r else r
    else if Key(rows[0], today) in store then
      assert Collides(store, today, present, rows);
      MarkRun(store, true)
    else
      var rec := AbsentRecord(rows[0], today);
      var r := MarkRows(store[Key(rows[0], today) := rec], types, today, present, rows[1..]);
      assert forall i :: 1 <= i < |rows| ==> rows[i] == rows[1..][i - 1];
      if r.integrityError then CollidesAfterCreate(store, today, present, rows, rec); r else r
  }

  /** The employee column of a listing of (employee, date) rows. */
  function EmployeeColumn(listing: seq<Key>): (rows: seq<int>)
    ensures |rows| == |listing|
    ensures forall i :: 0 <= i < |listing| ==> rows[i] == listing[i].employee
  {
    seq(|listing|, i requires 0 <= i < |listing| => listing[i].employee)
  }

  /**
   The job as written: the employee query is made distinct over the selected
   employee column together with the default ordering column, the date, so
   `listing` holds one row per record key, in the store's order.
   */
  function AutoMarkAbsentAsWritten(store: Store, types: TypeTable, today: int, listing: seq<Key>): (r: MarkRun)
    ensures !AbsentTypeAvailable(types) ==> r == MarkRun(store, false)
    ensures forall k :: k in store ==> k in r.store && r.store[k] == store[k]
    ensures forall k :: k in r.store && k !in store ==>
      k.date == today && Key(k.employee, today) !in store && r.store[k] == AbsentRecord(k.employee, today)
  {
    MarkRows(store, types, today, PresentToday(store, today), EmployeeColumn(listing))
  }

  /**
   A run that completes with the absent type configured, over a listing that
   holds a row for every record, gives every employee needing marking its
   absent record.
   */
  lemma AutoMarkAbsentAsWrittenCompletes(store: Store, types: TypeTable, today: int, listing: seq<Key>)
    requires forall k :: k in store ==> k in listing
    ensures var r := AutoMarkAbsentAsWritten(store, types, today, listing);
      AbsentTypeAvailable(types) && !r.integrityError ==>
        forall e :: e in NeedingMark(store, today) ==>
          Key(e, today) in r.store && r.store[Key(e, today)] == AbsentRecord(e, today)
  {
    var r := AutoMarkAbsentAsWritten(store, types, today, listing);
    var rows := EmployeeColumn(listing);
    if AbsentTypeAvailable(types) && !r.integrityError {
      forall e | e in NeedingMark(store, today)
        ensures Key(e, today) in r.store && r.store[Key(e, today)] == AbsentRecord(e, today)
      {
        var k :| k in store && k.employee == e;
        var i :| 0 <= i < |listing| && listing[i] == k;
        assert rows[i] == e;
        assert e !in PresentToday(store, today);
      }
    }
  }

  /**
   The run as written stops on the uniqueness of (employee, date) only when
   an employee with no record today is listed more than once.
   */
  lemma AutoMarkAbsentAsWrittenFailsOnRepeat(store: Store, types: TypeTable, today: int, listing: seq<Key>)
    ensures AutoMarkAbsentAsWritten(store, types, today, listing).integrityError ==>
      exists i, j :: 0 <= j < i < |listing| && listing[j].employee == listing[i].employee &&
        Key(listing[i].employee, today) !in store
  {
    var present := PresentToday(store, today);
    var rows := EmployeeColumn(listing);
    if AutoMarkAbsentAsWritten(store, types, today, listing).integrityError {
      var i :| 0 <= i < |rows| && rows[i] !in present &&
        (Key(rows[i], today) in store || exists j :: 0 <= j < i && rows[j] == rows[i]);
      var j :| 0 <= j < i && rows[j] == rows[i];
      assert listing[j].employee == listing[i].employee;
    }
  }

  /**
   An employee with records on two earlier days is listed twice: the first
   pass creates today's absent record, the second tries to create it again and
   the run stops on the uniqueness of (employee, date).
   */
  lemma AutoMarkAbsentRepeatedEmployee()
    ensures var store := map[Key(7, 1) := AbsentRecord(7, 1), Key(7, 2) := AbsentRecord(7, 2)];
      var types := map[AbsentCode := AttendanceType(AbsentCode, None, false, false)];
      AutoMarkAbsentAsWritten(store, types, 3, [Key(7, 2), Key(7, 1)]).integrityError
  {
    var store := map[Key(7, 1) := AbsentRecord(7, 1), Key(7, 2) := AbsentRecord(7, 2)];
    var types := map[AbsentCode := AttendanceType(AbsentCode, None, false, false)];
    assert Key(7, 1) in store;
    assert 7 in NeedingMark(store, 3);
    var present := PresentToday(store, 3);
    var rows := EmployeeColumn([Key(7, 2), Key(7, 1)]);
    assert rows == [7, 7];
    var s1 := store[Key(7, 3) := AbsentRecord(7, 3)];
    assert MarkRows(store, types, 3, present, rows) == MarkRows(s1, types, 3, present, [7]);
    assert MarkRows(s1, types, 3, present, [7]) == MarkRun(s1, true);
  }

  /** On the same store the corrected job marks the employee once and succeeds. */
  lemma AutoMarkAbsentRepeatedEmployeeCorrected()
    ensures var store := map[Key(7, 1) := AbsentRecord(7, 1), Key(7, 2) := AbsentRecord(7, 2)];
      var types := map[AbsentCode := AttendanceType(AbsentCode, None, false, false)];
      AutoMarkAbsent(store, types, 3) == store[Key(7, 3) := AbsentRecord(7, 3)]
  {
    var store := map[Key(7, 1) := AbsentRecord(7, 1), Key(7, 2) := AbsentRecord(7, 2)];
    var types := map[AbsentCode := AttendanceType(AbsentCode, None, false, false)];
    assert Key(7, 1) in store;
    assert 7 in Employees(store);
    assert NeedingMark(store, 3) == {7};
    var r := AutoMarkAbsent(store, types, 3);
    assert r.Keys == store.Keys + {Key(7, 3)};
  }

  /** No employee id appears twice. */
  predicate NoRepeats(rows: seq<int>) {
    forall i, j :: 0 <= i < j < |rows| ==> rows[i] != rows[j]
  }

  /** The listed employees outside `present`. */
  function {:induction false} Unmarked(rows: seq<int>, present: set<int>): (u: set<int>)
    ensures forall e :: e in u <==> e !in present && exists i :: 0 <= i < |rows| && rows[i] == e
    decreases |rows|
  {
    if |rows| == 0 then {}
    else
      var u := (if rows[0] in present then {} else {rows[0]}) + Unmarked(rows[1..], present);
      assert forall e :: e in u <==> e !in present && exists i :: 0 <= i < |rows| && rows[i] == e by {
        forall e ensures e in u <==> e !in present && exists i :: 0 <= i < |rows| && rows[i] == e {
          if e !in present && e != rows[0] && exists i :: 0 <= i < |rows| && rows[i] == e {
            var i :| 0 <= i < |rows| && rows[i] == e;
            assert rows[1..][i - 1] == e;
          }
          if e in Unmarked(rows[1..], present) {
            var i :| 0 <= i < |rows[1..]| && rows[1..][i] == e;
            assert rows[i + 1] == e;
          }
        }
      }
      u
  }

  /** Creating one absent record and then the rest is creating them all at once. */
  lemma AbsentRecordsAdd(store: Store, e: int, need: set<int>, today: int)
    requires e !in need
    ensures store[Key(e, today) := AbsentRecord(e, today)] + AbsentRecords(need, today) ==
      store + AbsentRecords(need + {e}, today)
  {
    var lhs := store[Key(e, today) := AbsentRecord(e, today)] + AbsentRecords(need, today);
    var rhs := store + AbsentRecords(need + {e}, today);
    assert lhs.Keys == rhs.Keys;
  }

  /**
   Over a listing that names each employee once, the loop never meets an
   existing record and adds exactly one absent record per listed employee
   outside `present`.
   */
  lemma {:induction false} MarkRowsNoRepeats(store: Store, types: TypeTable, today: int, present: set<int>, rows: seq<int>)
    requires AbsentTypeAvailable(types)
    requires NoRepeats(rows)
    requires forall i :: 0 <= i < |rows| && rows[i] !in present ==> Key(rows[i], today) !in store
    ensures MarkRows(store, types, today, present, rows) ==
      MarkRun(store + AbsentRecords(Unmarked(rows, present), today), false)
    decreases |rows|
  {
    if |rows| == 0 {
      assert store + AbsentRecords({}, today) == store;
    } else {
      var tail := rows[1..];
      assert NoRepeats(tail) by {
        forall i, j | 0 <= i < j < |tail| ensures tail[i] != tail[j] {
          assert tail[i] == rows[i + 1] && tail[j] == rows[j + 1];
        }
      }
      assert forall i :: 0 <= i < |tail| ==> tail[i] == rows[i + 1];
      if rows[0] in present {
        assert Unmarked(rows, present) == Unmarked(tail, present);
        assert MarkRows(store, types, today, present, rows) == MarkRows(store, types, today, present, tail);
        MarkRowsNoRepeats(store, types, today, present, tail);
      } else {
        assert rows[0] !in Unmarked(tail, present) by {
          forall i | 0 <= i < |tail| ensures tail[i] != rows[0] {
            assert rows[i + 1] != rows[0];
          }
        }
        var s1 := store[Key(rows[0], today) := AbsentRecord(rows[0], today)];
        assert Unmarked(rows, present) == Unmarked(tail, present) + {rows[0]};
        assert MarkRows(store, types, today, present, rows) == MarkRows(s1, types, today, present, tail);
        MarkRowsNoRepeats(s1, types, today, present, tail);
        AbsentRecordsAdd(store, rows[0], Unmarked(tail, present), today);
      }
    }
  }

  /**
   The corrected job is the loop over a listing that names every known
   employee exactly once: it never meets an existing record and leaves the
   store that `AutoMarkAbsent` computes.
   */
  lemma AutoMarkAbsentIsDistinctLoop(store: Store, types: TypeTable, today: int, rows: seq<int>)
    requires NoRepeats(rows)
    requires forall e :: e in Employees(store) <==> e in rows
    ensures MarkRows(store, types, today, PresentToday(store, today), rows) == MarkRun(AutoMarkAbsent(store, types, today), false)
  {
    if AbsentTypeAvailable(types) {
      var present := PresentToday(store, today);
      assert forall e :: e in present <==> Key(e, today) in store by {
        forall e ensures e in present <==> Key(e, today) in store {
          if e in present {
            var k :| k in store && k.date == today && k.employee == e;
          }
        }
      }
      MarkRowsNoRepeats(store, types, today, present, rows);
      assert Unmarked(rows, present) == NeedingMark(store, today);
    }
  }
}

=== FILE: wrappers.dfy ===
/** Option and Result datatypes used across the model. */
module Wrappers {

  datatype Option<+T> = None | Some(value: T) {

    /** The encapsulated value, or `default` when there is none. */
    function GetOr(default: T): T
    {
      match this
      case Some(v) => v
      case None => default
    }
  }

  /** A successful value, or the error the source reports instead. */
  datatype Result<+R, +E> = Success(value: R) | Failure(error: E)
}
